=== FILE: README.md ===
# CMS admin ranking, user import and loader core, in Dafny

This project models the pure core of a fork of CMS, the Contest Management
System. It covers six parts:

- **The admin ranking page.** The `show_teams` flag and the CSV export, with
  its header, one row per visible participation in username order, rounded
  per-task scores, the rounded global score and the partial markers.
- **The detailed-results printout.**
  - the summed maximum score;
  - participants ordered by `(last_name, first_name)`;
  - the rule that skips a task;
  - the unrounded total;
  - the report-wide partial flag;
  - the exception for non-group score types;
  - the Latvian outcome-text table;
  - the score formatter handed to the template.
- **Participant import** (`ImportParticipantsHandler`):
  - `prepare_team_code`;
  - the upload preview with its `has_errors` flag;
  - the save action that creates participations and teams.
- **User import and user forms** (`ImportUsersHandler`, `UserHandler`,
  `AddUserHandler`):
  - the upload preview;
  - the ignored-user count;
  - the save action;
  - the rule that a user needs a username.
- **The simple CSV user loader**: field defaults, selection of one user, and
  the path rules `detect` and `set_input_file_name`.
- **Small helpers**:
  - the contest server's `extract_token_params` and `contest_visible`;
  - the `Go` language definition of the grading service.

The database is represented by given maps and sets. The scoring policy
(`task_score`, `task_scored_submission`) and the Unicode services (`lower`,
NFKD, `combining`) are function-valued fields of records. File existence and
the fixed-point number formatter are function parameters. Python's `round` is
exact decimal rounding on `real`, in two modes:

- `HalfAway`: Python 2, which the ranking handler's first line names;
- `HalfEven`: Python 3.

Every property below is proved for both modes.

Modules, one per file:

- `Wrappers`: `Option`, `Result`.
- `Strings`: code-point lexicographic order.
- `Sorting`: filter and stable insertion sort.
- `Rounding`: Python's `round`.
- `ContestData`: the loaded contest graph.
- `RankingCsv`.
- `DetailedResults`.
- `TeamCode`.
- `ContestUser`.
- `PosixPath`: `os.path` basename, dirname, split and join.
- `SimpleCsv`.
- `UserHandlers`.
- `CwsToolbox`.
- `GoLanguage`.

Where the code and its documentation differ, the model follows the
code:

- **CSV row order.** The CSV rows are sorted by username, not by score.
- **Rounding.** The handler runs under Python 2, so ties round away from zero.
  Both modes are kept.
- **New teams during save.** On the participant "save" action, a team created
  for an earlier row is found by later rows with the same code. The session's
  autoflush makes the pending team visible to the lookup query, so no second
  team with that code is created. `ContestUser.Save` models this.

## Model

| member | source | states |
|---|---|---|
| Rounding.RoundHalfEven | cms/server/admin/handlers/contestranking.py:122 | the result is an integer nearest to x, and a tie goes to the even neighbour |
| Rounding.RoundHalfAway | cms/server/admin/handlers/contestranking.py:122 | the result is an integer nearest to x, and a tie goes away from zero (Python 2 `round`) |
| Rounding.RoundTo | cms/server/admin/handlers/contestranking.py:122 | `round(x, p)` has at most p decimals and lies within half a unit of the p-th decimal of x; at a tie the last digit is even (Python 3) or the result moves away from zero (Python 2) |
| Rounding.RoundInt | cms/server/admin/handlers/contestranking.py:122 | the result is an integer nearest to x, and a tie goes to the even neighbour or away from zero, as the mode says |
| Rounding.RoundToFixesPrecise | cms/server/admin/handlers/contestranking.py:222 | a value that already has at most p decimals is unchanged by rounding at p |
| Rounding.RoundToIdempotent | cms/server/admin/handlers/contestranking.py:122 | rounding twice at the same precision is rounding once |
| Rounding.RoundToInteger | cms/server/admin/handlers/contestranking.py:222 | an integral score survives rounding at any precision |
| ContestData.SumSnoc | cms/server/admin/handlers/contestranking.py:123 | the handlers' left-to-right `+=` accumulation equals the sum of the sequence |
| ContestData.SumOfZeros | cms/server/admin/handlers/contestranking.py:229 | adding only zero scores leaves the total at zero |
| Strings.LexLeTotal | cms/server/admin/handlers/contestranking.py:108-109 | any two usernames are comparable in code-point order |
| Strings.LexLeTransitive | cms/server/admin/handlers/contestranking.py:108-109 | code-point order on strings is transitive |
| Strings.LexLeAntisymmetric | cms/server/admin/handlers/contestranking.py:108-109 | two strings each ordered before the other are equal |
| Strings.PrefixIsLexLe | cms/server/admin/handlers/contestranking.py:108-109 | a prefix sorts before the strings it starts |
| Strings.PairLeTotal | cms/server/admin/handlers/contestranking.py:205-207 | any two `(last_name, first_name)` keys are comparable |
| Strings.PairLeTransitive | cms/server/admin/handlers/contestranking.py:205-207 | tuple comparison of name keys is transitive |
| Sorting.Filter | cms/server/admin/handlers/contestranking.py:110-111 | skipping elements keeps exactly those that pass the test, and adds nothing |
| Sorting.FilterConcat | cms/server/admin/handlers/contestranking.py:108-111 | filtering a concatenation is concatenating the filtered parts |
| Sorting.FilterMultiset | cms/server/admin/handlers/contestranking.py:108-111 | filtering two permutations of each other gives permutations of each other |
| Sorting.SortBy | cms/server/admin/handlers/contestranking.py:108-109 | `sorted` returns a permutation of its input |
| Sorting.SortBySorted | cms/server/admin/handlers/contestranking.py:108-109 | under a total preorder, `sorted` returns its input in key order |
| Sorting.SortByStable | cms/server/admin/handlers/contestranking.py:108-109 | `sorted` keeps elements with equal keys in their input order |
| Sorting.FilterKeepsOrder | cms/server/admin/handlers/contestranking.py:108-111 | skipping elements of a sorted sequence leaves it sorted |
| Sorting.FilterCommute | cms/server/admin/handlers/contestranking.py:108-111 | two filters can be applied in either order |
| RankingCsv.ShowTeams | cms/server/admin/handlers/contestranking.py:69-71 | `show_teams` holds iff some participation, hidden ones included, has a team |
| RankingCsv.TaskHeaders | cms/server/admin/handlers/contestranking.py:97-100 | each task contributes its name then `P`, in contest order |
| RankingCsv.Header | cms/server/admin/handlers/contestranking.py:94-106 | the header is `Username, User`, then `Team` iff teams are shown, then name and `P` per task, then `Global, P`, at the common row width |
| RankingCsv.TaskColumns | cms/server/admin/handlers/contestranking.py:120-129 | the task columns hold, per task and in order, the score rounded at the task's precision and its star; the running total is the sum of those rounded scores and the partial flag is set iff some task is partial |
| RankingCsv.Row | cms/server/admin/handlers/contestranking.py:113-132 | a data row holds the username, the full name, the team name or empty, each task's score rounded at the task's precision with its star, the contest-precision rounding of the sum of rounded task scores, and a star iff some task is partial |
| RankingCsv.GlobalMarkIffTaskMark | cms/server/admin/handlers/contestranking.py:124-132 | the Global `P` cell is starred iff some task's `P` cell is |
| RankingCsv.ByUsernameTotalPreorder | cms/server/admin/handlers/contestranking.py:108-109 | the username sort key is a total preorder |
| RankingCsv.CsvOrderIsVisibleByUsername | cms/server/admin/handlers/contestranking.py:108-111 | the data rows are a permutation of the visible participations, in ascending username order, with ties in database order |
| RankingCsv.RowsWidth | cms/server/admin/handlers/contestranking.py:94-132 | every row, header included, has 2 + (1 with teams) + 2 per task + 2 cells |
| RankingCsv.RankingCsv | cms/server/admin/handlers/contestranking.py:90-139 | the file is the header followed by exactly one row per visible participation in username order, all of the same width |
| DetailedResults.OutcomeText | cms/server/admin/handlers/contestranking.py:149-170 | a message in the table becomes exactly its table text, any other text passes through unchanged, and the text changes iff the table knows it |
| DetailedResults.TranslationsAreNotMessages | cms/server/admin/handlers/contestranking.py:152-167 | no Latvian text is itself a key of the table |
| DetailedResults.OutcomeTextIdempotent | cms/server/admin/handlers/contestranking.py:168-170 | translating a text twice gives the same result as translating it once |
| DetailedResults.OutcomeTextExamples | cms/server/admin/handlers/contestranking.py:153-166 | both timeout messages read `Laika limits`, a correct output reads `Pareizi`, a nonzero exit reads `Izpildes kļūda`, and unknown texts are kept |
| DetailedResults.FormatScore | cms/server/admin/handlers/contestranking.py:172-175 | the text is the formatted score, a slash, then the formatted maximum |
| DetailedResults.FormatScoreSplits | cms/server/admin/handlers/contestranking.py:172-175 | when a formatted number holds no slash, cutting at the first slash recovers the score text and the maximum text |
| DetailedResults.TranslateTestcases | cms/server/admin/handlers/contestranking.py:242-244 | every testcase text in a group is translated, and its outcome and position are kept |
| DetailedResults.TranslateDetails | cms/server/admin/handlers/contestranking.py:239-244 | the score details keep their groups and testcases, and only the texts change |
| DetailedResults.TaskBlock | cms/server/admin/handlers/contestranking.py:231-257 | a task gets a block iff there is a submission; the block has the rounded score, the task maximum, the result status or COMPILING, and translated tests only when SCORED |
| DetailedResults.ParticipantTasks | cms/server/admin/handlers/contestranking.py:218-257 | the task loop fails iff some task is not a group type, and reports the first such task by name |
| DetailedResults.ParticipantTotal | cms/server/admin/handlers/contestranking.py:222-229 | the total is the unrounded sum of all rounded task scores, skipped tasks included |
| DetailedResults.ParticipantTotalShown | cms/server/admin/handlers/contestranking.py:229-257 | the total also equals the sum of the scores in the shown blocks, since a task is skipped only when it scores zero |
| DetailedResults.ParticipantPartial | cms/server/admin/handlers/contestranking.py:219-221 | any task, skipped or not, sets the partial flag |
| DetailedResults.ParticipantBlockTasks | cms/server/admin/handlers/contestranking.py:245-257 | the shown blocks are exactly those of attempted tasks, in contest order |
| DetailedResults.ParticipantBlockContents | cms/server/admin/handlers/contestranking.py:248-257 | every shown block carries its task's rounded score, maximum, status and translated tests |
| DetailedResults.NoSubmissionsNoBlocks | cms/server/admin/handlers/contestranking.py:245-246 | a participant without a submission gets no block and a zero total |
| DetailedResults.ByNameTotalPreorder | cms/server/admin/handlers/contestranking.py:205-207 | the `(last_name, first_name)` key is a total preorder |
| DetailedResults.NameOrderIsVisibleByName | cms/server/admin/handlers/contestranking.py:206-210 | the report lists a permutation of the visible participations, ordered by name, with ties in database order |
| DetailedResults.InNameOrder | cms/server/admin/handlers/contestranking.py:206-210 | a participation is in the report iff it belongs to the contest and is not hidden |
| DetailedResults.Results | cms/server/admin/handlers/contestranking.py:206-261 | the participant loop fails iff there is a participant and some non-group task, names the first such task, and gives one result per participant |
| DetailedResults.ResultsAreParticipantTasks | cms/server/admin/handlers/contestranking.py:212-261 | each result is its participant's task-loop outcome with the common maximum |
| DetailedResults.ResultsPartial | cms/server/admin/handlers/contestranking.py:219-221 | the report's partial flag is set iff some task of some participant is partial |
| DetailedResults.Detailed | cms/server/admin/handlers/contestranking.py:196-264 | the report fails iff some participation is visible and some task is not a group type, and otherwise has one result per visible participation |
| DetailedResults.DetailedContents | cms/server/admin/handlers/contestranking.py:199-261 | each result belongs to the next participant in name order, carries the summed maximum of all tasks, totals the rounded task scores unrounded, and shows blocks for exactly the attempted tasks |
| DetailedResults.DetailedPartial | cms/server/admin/handlers/contestranking.py:196-264 | `partial_results` holds iff some task of some visible participant is partial, shown or not |
| TeamCode.DropCombining | cms/server/admin/handlers/contestuser.py:289-290 | the result is exactly the non-combining characters of the input, in order |
| TeamCode.Collapse | cms/server/admin/handlers/contestuser.py:285-291 | the result has only `[a-zA-Z0-9-]` and `_`, no `__`, the same code characters in the same order, and starts with `_` iff the input starts with a non-code character |
| TeamCode.CollapseAppend | cms/server/admin/handlers/contestuser.py:285-291 | a string ending in a code character is substituted independently of what follows it |
| TeamCode.CollapseRun | cms/server/admin/handlers/contestuser.py:285-291 | each maximal run of non-code characters becomes exactly one `_` between the same neighbours |
| TeamCode.StripUnderscores | cms/server/admin/handlers/contestuser.py:292 | the result is an infix with no `_` at either end, and only `_` is cut on each side |
| TeamCode.StripUnderscoresKeeps | cms/server/admin/handlers/contestuser.py:292 | stripping keeps the alphabet, the absence of `__`, and the code characters |
| TeamCode.PrepareTeamCode | cms/server/admin/handlers/contestuser.py:285-292 | a team code has only `[a-zA-Z0-9-]` and `_`, never starts or ends with `_`, and never holds `__` |
| TeamCode.PrepareTeamCodeKeepsText | cms/server/admin/handlers/contestuser.py:288-292 | the code keeps every `[a-zA-Z0-9-]` character of the folded name, in order |
| TeamCode.CollapseKeepsCodeText | cms/server/admin/handlers/contestuser.py:291 | text made only of code characters is not changed by the substitution |
| TeamCode.DropCombiningKeeps | cms/server/admin/handlers/contestuser.py:289-290 | text without combining characters is kept whole |
| TeamCode.CodeTextIsFixedPoint | cms/server/admin/handlers/contestuser.py:288-292 | a name made only of `[a-z0-9-]` is its own team code |
| ContestUser.UploadEntries | cms/server/admin/handlers/contestuser.py:311-345 | the loop stops at the first row without a username column or without a user; otherwise each entry has the row's username, user id, participant flag, team cell, and a password iff passwords are loaded |
| ContestUser.Upload | cms/server/admin/handlers/contestuser.py:303-353 | the preview exists iff no row is rejected; otherwise the first rejected row decides between a malformed file and a missing user. Each preview entry holds its row's username, user id, participant flag, team cell, and a password iff passwords are loaded; `has_errors` holds iff existing participants are not ignored and some row's user already takes part |
| ContestUser.TeamFor | cms/server/admin/handlers/contestuser.py:363-371 | an empty field gives no team; otherwise the team has the field's code, and is the known team with that code or a new one named by the field |
| ContestUser.CreatedTeam | cms/server/admin/handlers/contestuser.py:369-371 | a team is created iff the field is non-empty and its code is unknown |
| ContestUser.Known | cms/server/admin/handlers/contestuser.py:367-371 | a team added to the session is visible to later lookups, and nothing else changes |
| ContestUser.Save | cms/server/admin/handlers/contestuser.py:357-377 | one participation per user id, in order, with that row's password or none, and a team iff the team field is non-empty, coded by the field |
| ContestUser.SavedTeamsAreNew | cms/server/admin/handlers/contestuser.py:367-371 | every created team has a code that was unknown before, and no two created teams share a code |
| ContestUser.SavedTeamsNamedByFirstRow | cms/server/admin/handlers/contestuser.py:357-377 | each created team has the code and the name of the first row asking for that code, a code the database does not know |
| ContestUser.FirstRowsAddTeams | cms/server/admin/handlers/contestuser.py:357-377 | the first row asking for each unknown code creates the team its field names |
| ContestUser.SavedJoinsExistingTeam | cms/server/admin/handlers/contestuser.py:367-368 | a row whose team code is already known joins that very team |
| ContestUser.SavedTeamsExist | cms/server/admin/handlers/contestuser.py:363-376 | every team a participation refers to existed before or was created in this save |
| ContestUser.SaveUsesTeamCode | cms/server/admin/handlers/contestuser.py:364-368 | every team code is `prepare_team_code` of the row's team field |
| PosixPath.Basename | cmscontrib/loaders/simple_csv.py:65 | the basename holds no slash, is a suffix of the path, and is preceded by a slash when shorter than the path |
| PosixPath.Dirname | cmscontrib/loaders/simple_csv.py:62 | the directory part is the path up to its last slash, kept whole when that is empty or only slashes, and otherwise with its trailing slashes removed |
| PosixPath.Split | cmscontrib/loaders/simple_csv.py:78 | `split` gives `dirname` and `basename`, a prefix and a suffix of the path no longer together than it |
| PosixPath.Join | cmscontrib/loaders/simple_csv.py:64 | an absolute second part replaces the first; otherwise the two are concatenated, with a `/` between them unless the first is empty or already ends in one |
| PosixPath.BasenameOfJoin | cmscontrib/loaders/simple_csv.py:75-76 | the basename of a join with a plain name is that name |
| PosixPath.HeadAndBasename | cmscontrib/loaders/simple_csv.py:78 | the head and the basename put back together give the path |
| PosixPath.SplitOfJoin | cmscontrib/loaders/simple_csv.py:78-82 | `split` undoes `join` of a directory without a trailing slash and a plain name |
| SimpleCsv.UserFileIsName | cmscontrib/loaders/simple_csv.py:48 | `contestants.csv` is a non-empty plain file name |
| SimpleCsv.Get | cmscontrib/loaders/simple_csv.py:97 | `row.get(c)` has a value iff the column is present, and that value is the cell |
| SimpleCsv.UserOf | cmscontrib/loaders/simple_csv.py:93-101 | first name from `name`, defaulting to the username; last name defaulting to empty; email or none; a password only when the cell is non-empty |
| SimpleCsv.GetUsers | cmscontrib/loaders/simple_csv.py:89-104 | reading fails iff some row lacks a username column; otherwise there is exactly one user per row, in order |
| SimpleCsv.GetUsersKeepsRows | cmscontrib/loaders/simple_csv.py:92-96 | each user's username is its row's cell, and the first name falls back to it |
| SimpleCsv.GetUser | cmscontrib/loaders/simple_csv.py:106-112 | a user is returned iff exactly one user has the wanted username, and it is that user |
| SimpleCsv.GetUserIffUnique | cmscontrib/loaders/simple_csv.py:106-112 | a user is found iff its username occurs exactly once, and never without a wanted username |
| SimpleCsv.Detect | cmscontrib/loaders/simple_csv.py:59-66 | detection holds iff `contestants.csv` exists beside the path, or the path or its directory is named `contestants.csv` |
| SimpleCsv.DetectsLoaderPaths | cmscontrib/loaders/simple_csv.py:59-66 | a `contestants.csv` path and an entry under such a directory are always detected |
| SimpleCsv.DetectedShapes | cmscontrib/loaders/simple_csv.py:59-66 | with nothing named `contestants.csv` beside the path, a detected path is either a join onto `contestants.csv` or lies under a directory that is such a join |
| SimpleCsv.SetInputFileNameAsWritten | cmscontrib/loaders/simple_csv.py:72-82 | a user is set iff the path is not `contestants.csv` and holds no such file, and then it is the path's basename; the file read is the path itself, the file inside it, the bare name `contestants.csv` when the parent is so named, or `contestants.csv` beside the path |
| SimpleCsv.AsWrittenLosesDirectory | cmscontrib/loaders/simple_csv.py:78-80 | any path `<d>/contestants.csv/<name>` with no file under it (`/data/contestants.csv/alice`, say) resolves to user `<name>` and a bare `contestants.csv`, which is not under the path's directory `<d>/contestants.csv` |
| SimpleCsv.SetInputFileName | cmscontrib/loaders/simple_csv.py:72-82 | with the directory kept, the file read is the path itself, the file inside it, the parent directory when it is named `contestants.csv`, or `contestants.csv` beside the path; it is always named `contestants.csv` and lies under the path's directory, and the user rule is unchanged |
| SimpleCsv.CorrectionOnlyInLastBranch | cmscontrib/loaders/simple_csv.py:79-82 | the corrected and as-written resolutions agree on the user always, and on everything unless the parent is `contestants.csv` |
| UserHandlers.Uploaded | cms/server/admin/handlers/user.py:363-364 | the password is cleared when passwords are generated or only defaulted, and every other field is kept |
| UserHandlers.Shown | cms/server/admin/handlers/user.py:369-370 | an existing user's non-empty password is shown as `not_empty`, every other field unchanged; a user without one is shown as stored |
| UserHandlers.ProcessUsers | cms/server/admin/handlers/user.py:361-386 | upload fails iff existing users are not ignored and one exists, naming the first; otherwise one entry per user in order, new ones flagged True, the ignored count equals the False entries and the existing usernames, and a notification iff it is positive |
| UserHandlers.ExistingAreKnown | cms/server/admin/handlers/user.py:367-380 | for preview lines that match the uploaded users one by one, the number of existing-user lines equals the number of uploaded usernames already stored |
| UserHandlers.Upload | cms/server/admin/handlers/user.py:353-394 | a malformed CSV fails before any lookup; otherwise the outcome is that of the loop over the loaded users |
| UserHandlers.SaveUsers | cms/server/admin/handlers/user.py:395-414 | one user per submitted username, in order, with its row's fields and the submitted password, or the generated one when that is empty |
| UserHandlers.SavedUsersHavePasswords | cms/server/admin/handlers/user.py:408-412 | no saved user has an empty password when generated ones are non-empty |
| UserHandlers.GetString | cms/server/admin/handlers/user.py:71-79 | an absent field changes nothing, an empty one stores the `empty` value, and any other stores its text; other attributes are kept |
| UserHandlers.EditUser | cms/server/admin/handlers/user.py:63-91 | an edit is refused iff the form empties the username, or omits it while the user has none; an accepted edit keeps a username and every attribute the form omits |
| UserHandlers.AddUser | cms/server/admin/handlers/user.py:230-259 | adding is refused iff the username field is missing or empty; otherwise the user has that username and only attributes from the form |
| UserHandlers.StoredAfterEdit | cms/server/admin/handlers/user.py:81-91 | a refused edit leaves the stored user unchanged, an accepted one stores the edited attributes, and a user with a username keeps one |
| CwsToolbox.ExtractTokenParams | cms/server/contest/jinja2_toolbox.py:33-35 | the keys are exactly the `token_` attribute names with the prefix removed, each mapped to its attribute's value |
| CwsToolbox.TokenParamsLoseNothing | cms/server/contest/jinja2_toolbox.py:34-35 | every `token_` attribute reappears under its stripped name, and stripping never merges two attributes |
| CwsToolbox.ListedEnd | cms/server/contest/jinja2_toolbox.py:44 | the end is the analysis stop when analysis is enabled, and the contest stop otherwise |
| CwsToolbox.ContestVisible | cms/server/contest/jinja2_toolbox.py:38-44 | a contest is listed iff start - 6h <= now < end + 6h |
| CwsToolbox.VisibilityIgnoresFirst | cms/server/contest/jinja2_toolbox.py:42 | the first component of the list entry plays no part |
| CwsToolbox.RunningContestIsVisible | cms/server/contest/jinja2_toolbox.py:43-44 | a running contest, or one in analysis, is listed |
| CwsToolbox.VisibleTimesAreInterval | cms/server/contest/jinja2_toolbox.py:43-44 | the listed instants form one interval |
| CwsToolbox.VisibilityBounds | cms/server/contest/jinja2_toolbox.py:43-44 | the lower bound is inclusive and the upper bound exclusive |
| GoLanguage.Go | cms/grading/languages/go.py:38-51 | the language is named `Go`, its sources end in `.go` exactly, and it needs multithreading |
| GoLanguage.CompilationCommands | cms/grading/languages/go.py:53-58 | exactly one command, `/usr/bin/go build -o <executable> <first source>` |
| GoLanguage.CompilationIgnoresRest | cms/grading/languages/go.py:53-58 | further sources and the evaluation flag do not change the command |
| GoLanguage.CompilationCommandsInjective | cms/grading/languages/go.py:57-58 | different executables or first sources give different commands |

## Left out

- Tornado request handling, permissions, redirects, notification texts, template rendering, `try_commit` and `proxy_service.reinitialize`: these are I/O. Notifications that decide control flow appear as flags or errors.
- SQLAlchemy queries and `joinedload`: the loaded contest and the database are given values (sequences, maps and sets).
- `task_score`, `task_scored_submission` and `scoretypes.get_score_type`: they are not part of this model. They enter as function fields of `ContestData.Scoring` and as the `ScoreType` of each task.
- Python's binary floating point: scores are exact reals.
- DetailedResults.FormatScore: the `"{:.Nf}"` formatting is a given function parameter. The model states only how the two numbers are joined.
- `csv.writer` quoting and encoding, and the Python 2/3 unicode branch: cells are values.
- `csv.DictReader` parsing: a row is a map from column name to cell. Padding a short row with `None` is not modelled.
- `json.loads` of score details and testcase texts: testcases arrive decoded. The text is the first element of the stored list.
- Unicode `lower`, NFKD and `unicodedata.combining`: these are given functions.
- Password hashing and random password generation:
  - a hash is the plaintext value it was given;
  - generated passwords are a given sequence.
- `os.path.exists`: this is a given predicate, the `pathExists` parameter of the `SimpleCsv` path functions. It holds for directories as well as files.
- `BaseHandler.get_string`, `get_password` and `get_string_list`: base.py is not part of this model.
  - `UserHandlers.GetString` follows the behaviour its callers rely on.
  - Passwords, preferred languages and the forms' other fields are not modelled.
- DetailedResults.Detailed: every member of the detailed report requires `StatusDefined` (or `NoStaleStatus` for the whole contest). That is, a visible participation without a submission for a task must have a rounded task score of 0.0. The handler (contestranking.py:232-253) reads `status` even when that fails. If it is the first such task of the run, this raises `UnboundLocalError`. Otherwise the block shows the status left over from an earlier task or participant. The model does not describe either outcome. The precondition is a constraint on the given `task_scored_submission` and `task_score` functions: a score without a submission must round to zero.
- RankingCsv.ShowTeams: a team is `Option<Team>`. A falsy `team_id` of 0 therefore counts as a team here.
- GoLanguage.CompilationCommands: requires a non-empty source list. The original raises `IndexError` on an empty one.
- UserHandlers.SaveUsers: requires the form's lists to be at least as long as the usernames. The original raises `IndexError` otherwise.
- ContestUser.Save: requires the team list to cover the user ids, and the password list to be empty or to cover them. The original raises `IndexError` otherwise. Looking up a user id that does not exist (`safe_get_item`, an HTTP 404) is not modelled.
- The existing user in the user-upload preview is shown with `not_empty` as its password. The write this makes to the session object is not modelled.
- CwsToolbox.ContestVisible: times are integers in microseconds, the resolution of `datetime`. Time zones are not modelled.
- The Jinja2 environment wiring (`instrument_cms_toolbox`, loaders, `format_token_rules`, `get_score_class`) and the participation-edit parsers: these are plumbing and helpers outside this model.

## Findings

| source | as written | input that shows it | evidently intended | confidence | as-written member | corrected member |
|---|---|---|---|---|---|---|
| cmscontrib/loaders/simple_csv.py:80 | `real_path = os.path.basename(dir_name)` when the parent directory is named `contestants.csv` | path `/data/contestants.csv/alice` with no such file: `real_path` becomes `contestants.csv`, relative to the working directory | `real_path = dir_name`, the `contestants.csv` file the path points into | medium, not executed | SimpleCsv.SetInputFileNameAsWritten (shown by SimpleCsv.AsWrittenLosesDirectory) | SimpleCsv.SetInputFileName |

=== FILE: contest_data.dfy ===
/** The already-loaded contest graph the admin ranking handlers read: tasks
    in contest order, participations in database order, and the scoring
    policy, which is not part of this model and enters as the function
    values of `Scoring`. */
module ContestData {
  import opened Wrappers
  import opened Rounding

  /** The active dataset's score type: only the group kind can itemise
      testcases in the detailed report. */
  datatype ScoreType = Group(maxScore: real) | Other(maxScore: real)

  datatype Task = Task(name: string, scorePrecision: nat, scoreType: ScoreType)

  datatype Team = Team(code: string, name: string)

  datatype User = User(username: string, firstName: string, lastName: string)

  datatype Participation = Participation(user: User, hidden: bool, team: Option<Team>)

  /** The result of `hash_password(value, method='plaintext')`: the value
      it was given, the hashing scheme itself not being modelled. */
  datatype Hashed = Plaintext(raw: Option<string>)

  datatype Contest = Contest(tasks: seq<Task>, participations: seq<Participation>, scorePrecision: nat)

  /** Lifecycle of a submission result. */
  datatype Status = Compiling | CompilationFailed | Evaluating | Evaluated | Scoring | Scored

  /** One decoded testcase entry of a group score type's details; `text` is
      the first element of the stored message list. */
  datatype Testcase = Testcase(outcome: string, text: string)

  datatype TestGroup = TestGroup(testcases: seq<Testcase>)

  datatype SubmissionResult = SubmissionResult(status: Status, scoreDetails: seq<TestGroup>)

  /** A submission, seen through its result for the task's active dataset. */
  datatype Submission = Submission(result: Option<SubmissionResult>)

  /** What `task_score` reports. */
  datatype TaskScore = TaskScore(score: real, partial: bool)

  /** What `task_scored_submission` reports. */
  datatype ScoredSubmission = ScoredSubmission(score: real, partial: bool, submission: Option<Submission>)

  /** The scoring policy and the interpreter's `round`. */
  datatype Scoring = Scoring(
    taskScore: (Participation, Task) -> TaskScore,
    scoredSubmission: (Participation, Task) -> ScoredSubmission,
    rounding: Mode)

  predicate IsVisible(p: Participation) {
    !p.hidden
  }

  function Sum(xs: seq<real>): real {
    if |xs| == 0 then 0.0 else xs[0] + Sum(xs[1..])
  }

  /** Adding the scores one at a time from the left, as the handlers'
      `+=` loops do, gives `Sum`. */
  lemma {:induction false} SumSnoc(xs: seq<real>, x: real)
    ensures Sum(xs + [x]) == Sum(xs) + x
    decreases |xs|
  {
    if |xs| > 0 {
      assert (xs + [x])[1..] == xs[1..] + [x];
      SumSnoc(xs[1..], x);
    } else {
      assert xs + [x] == [x];
    }
  }

  /** `SumSnoc` for a prefix of `xs` grown by its next element. */
  lemma SumTakeSnoc(xs: seq<real>, k: nat)
    requires k < |xs|
    ensures Sum(xs[..k + 1]) == Sum(xs[..k]) + xs[k]
  {
    assert xs[..k + 1] == xs[..k] + [xs[k]];
    SumSnoc(xs[..k], xs[k]);
  }

  /** A sum of zeros is zero. */
  lemma {:induction false} SumOfZeros(xs: seq<real>)
    requires forall i :: 0 <= i < |xs| ==> xs[i] == 0.0
    ensures Sum(xs) == 0.0
    decreases |xs|
  {
    if |xs| > 0 {
      SumOfZeros(xs[1..]);
    }
  }
}

=== FILE: contest_user.dfy ===
/** `ImportParticipantsHandler.post`: the preview built from an uploaded
    CSV of participants ("upload"), and the participations created from the
    confirmed preview ("save").  The database is given as maps and sets. */
module ContestUser {
  import opened Wrappers
  import opened ContestData
  import opened TeamCode
  import opened SimpleCsv

  datatype PreviewEntry = PreviewEntry(
    participant: bool,
    username: string,
    userId: nat,
    team: Option<string>,
    password: Option<Hashed>)

  /** Why the upload redirects back without a preview: a malformed file
      (a row without a username column) or a username with no user. */
  datatype UploadError = BadCsv | UserMissing(username: string)

  datatype Preview = Preview(users: seq<PreviewEntry>, hasErrors: bool, loadPasswords: bool)

  /** What the upload reads from the database: user ids by username, and
      the users that already take part in this contest. */
  datatype ParticipantDb = ParticipantDb(userIds: map<string, nat>, participants: set<nat>)

  /** The row at which the upload stops: it has no username column or its
      username has no user. */
  predicate Rejected(db: ParticipantDb, row: CsvRow) {
    "username" !in row || row["username"] !in db.userIds
  }

  function RejectionOf(db: ParticipantDb, row: CsvRow): UploadError
    requires Rejected(db, row)
  {
    if "username" !in row then BadCsv else UserMissing(row["username"])
  }

  function EntryOf(db: ParticipantDb, row: CsvRow, loadPasswords: bool): PreviewEntry
    requires !Rejected(db, row)
  {
    var name := row["username"];
    var id := db.userIds[name];
    PreviewEntry(
      id in db.participants,
      name,
      id,
      Get(row, "team"),
      if loadPasswords then Some(Plaintext(Get(row, "password"))) else None)
  }

  /** The loop over the uploaded rows. */
  function UploadEntries(db: ParticipantDb, rows: seq<CsvRow>, loadPasswords: bool): (r: Result<seq<PreviewEntry>, UploadError>)
    ensures r.Failure? <==> exists i :: 0 <= i < |rows| && Rejected(db, rows[i])
    ensures r.Failure? ==>
              exists i :: && 0 <= i < |rows| && Rejected(db, rows[i])
                          && (forall j :: 0 <= j < i ==> !Rejected(db, rows[j]))
                          && r.error == RejectionOf(db, rows[i])
    ensures r.Success? ==> |r.value| == |rows|
    ensures r.Success? ==> forall i :: 0 <= i < |rows| ==> !Rejected(db, rows[i]) && EntryFields(db, rows[i], loadPasswords, r.value[i])
  {
    if |rows| == 0 then Success([])
    else if Rejected(db, rows[0]) then Failure(RejectionOf(db, rows[0]))
    else
      match UploadEntries(db, rows[1..], loadPasswords)
      case Failure(e) => Failure(e)
      case Success(rest) =>
        EntriesCons(db, rows, loadPasswords, rest);
        Success([EntryOf(db, rows[0], loadPasswords)] + rest)
  }

  /** What the entry of an accepted row holds. */
  predicate EntryFields(db: ParticipantDb, row: CsvRow, loadPasswords: bool, e: PreviewEntry)
    requires !Rejected(db, row)
  {
    && e.username == row["username"]
    && e.userId == db.userIds[row["username"]]
    && (e.participant <==> e.userId in db.participants)
    && e.team == Get(row, "team")
    && (e.password.Some? <==> loadPasswords)
    && (loadPasswords ==> e.password == Some(Plaintext(Get(row, "password"))))
  }

  lemma EntriesCons(db: ParticipantDb, rows: seq<CsvRow>, loadPasswords: bool, rest: seq<PreviewEntry>)
    requires |rows| > 0 && |rest| == |rows| - 1
    requires forall i :: 0 <= i < |rows| ==> !Rejected(db, rows[i])
    requires forall i :: 1 <= i < |rows| ==> EntryFields(db, rows[i], loadPasswords, rest[i - 1])
    ensures var r := [EntryOf(db, rows[0], loadPasswords)] + rest;
            forall i :: 0 <= i < |rows| ==> EntryFields(db, rows[i], loadPasswords, r[i])
  {
  }

  /** The "upload" action.  `has_errors` is raised only when some row's
      user already takes part and existing participants are not to be
      ignored. */
  function Upload(db: ParticipantDb, rows: seq<CsvRow>, ignoreExisting: bool, loadPasswords: bool): (r: Result<Preview, UploadError>)
    ensures r.Failure? <==> exists i :: 0 <= i < |rows| && Rejected(db, rows[i])
    ensures r.Failure? ==>
              exists i :: && 0 <= i < |rows| && Rejected(db, rows[i])
                          && (forall j :: 0 <= j < i ==> !Rejected(db, rows[j]))
                          && r.error == RejectionOf(db, rows[i])
    ensures r.Success? ==> |r.value.users| == |rows| && r.value.loadPasswords == loadPasswords
    ensures r.Success? ==>
              forall i :: 0 <= i < |rows| ==> !Rejected(db, rows[i]) && EntryFields(db, rows[i], loadPasswords, r.value.users[i])
    ensures r.Success? ==>
              (r.value.hasErrors <==>
                 !ignoreExisting && exists i :: 0 <= i < |rows| && db.userIds[rows[i]["username"]] in db.participants)
  {
    match UploadEntries(db, rows, loadPasswords)
    case Failure(e) => Failure(e)
    case Success(entries) =>
      var someParticipantsExist := !ignoreExisting && exists i :: 0 <= i < |entries| && entries[i].participant;
      Success(Preview(entries, someParticipantsExist && !ignoreExisting, loadPasswords))
  }

  /** Each team is filed under its own code. */
  predicate ByCode(teams: map<string, Team>) {
    forall code :: code in teams ==> teams[code].code == code
  }

  /** The team a confirmed row joins: none for an empty team field, else
      the known team with the field's code, else a new one named after the
      field. */
  function TeamFor(codeOf: string -> string, teams: map<string, Team>, field: string): (r: Option<Team>)
    requires ByCode(teams)
    ensures r.None? <==> field == ""
    ensures r.Some? ==> r.value.code == codeOf(field)
    ensures r.Some? && codeOf(field) !in teams ==> r.value.name == field
    ensures r.Some? && codeOf(field) in teams ==> r.value == teams[codeOf(field)]
  {
    if field == "" then None
    else
      var code := codeOf(field);
      if code in teams then Some(teams[code]) else Some(Team(code, field))
  }

  /** The team a confirmed row adds to the session: its team when no team
      with that code is known yet. */
  function CreatedTeam(codeOf: string -> string, teams: map<string, Team>, field: string): (r: seq<Team>)
    requires ByCode(teams)
    ensures r == [] <==> field == "" || codeOf(field) in teams
    ensures r != [] ==> r == [Team(codeOf(field), field)]
  {
    var team := TeamFor(codeOf, teams, field);
    if team.Some? && team.value.code !in teams then [team.value] else []
  }

  /** The known teams after a row: a created team is visible to the rows
      that follow, since the session flushes it before the next query. */
  function Known(teams: map<string, Team>, created: seq<Team>): (r: map<string, Team>)
    requires ByCode(teams)
    requires |created| <= 1
    requires created == [] || created[0].code !in teams
    ensures ByCode(r)
    ensures forall code :: code in teams ==> code in r && r[code] == teams[code]
    ensures forall code :: code in r ==> code in teams || (created != [] && code == created[0].code)
  {
    if created == [] then teams else teams[created[0].code := created[0]]
  }

  datatype NewParticipation = NewParticipation(userId: nat, team: Option<Team>, password: Option<string>)

  /** The "save" action's outcome: the participations and the teams it
      adds to the session. */
  datatype Saved = Saved(participations: seq<NewParticipation>, newTeams: seq<Team>)

  /** What the "save" action records for one confirmed row. */
  predicate SavedAs(codeOf: string -> string, p: NewParticipation, userId: nat, field: string, password: Option<string>) {
    && p.userId == userId
    && p.password == password
    && (p.team.None? <==> field == "")
    && (p.team.Some? ==> p.team.value.code == codeOf(field))
  }

  function Password(passwords: seq<string>, i: nat): Option<string>
    requires |passwords| == 0 || i < |passwords|
  {
    if |passwords| == 0 then None else Some(passwords[i])
  }

  /** The "save" action: one participation per submitted user id, in form
      order, each row looking its team up among the database's teams and
      the ones earlier rows created.  The team list is aligned with the
      ids; the password list is either empty (no passwords) or aligned
      too. */
  function Save(codeOf: string -> string, teams: map<string, Team>, userIds: seq<nat>, teamFields: seq<string>, passwords: seq<string>)
    : (r: Saved)
    requires ByCode(teams)
    requires |teamFields| >= |userIds|
    requires |passwords| == 0 || |passwords| >= |userIds|
    ensures |r.participations| == |userIds|
    ensures forall i :: 0 <= i < |userIds| ==>
              SavedAs(codeOf, r.participations[i], userIds[i], teamFields[i], Password(passwords, i))
    decreases |userIds|
  {
    if |userIds| == 0 then Saved([], [])
    else
      var team := TeamFor(codeOf, teams, teamFields[0]);
      var created := CreatedTeam(codeOf, teams, teamFields[0]);
      var rest := Save(codeOf, Known(teams, created), userIds[1..], teamFields[1..],
                       if |passwords| > 0 then passwords[1..] else []);
      var r := Saved([NewParticipation(userIds[0], team, Password(passwords, 0))] + rest.participations,
                     created + rest.newTeams);
      assert forall i :: 0 < i < |userIds| ==> r.participations[i] == rest.participations[i - 1];
      r
  }

  /** No team in `newTeams` has a code in `teams`, and no two of them share
      a code. */
  predicate FreshTeams(teams: map<string, Team>, newTeams: seq<Team>) {
    && (forall k :: 0 <= k < |newTeams| ==> newTeams[k].code !in teams)
    && (forall k, l :: 0 <= k < l < |newTeams| ==> newTeams[k].code != newTeams[l].code)
  }

  /** Every participation whose team code is in `teams` has that team. */
  predicate JoinsExisting(teams: map<string, Team>, ps: seq<NewParticipation>) {
    forall i :: 0 <= i < |ps| && ps[i].team.Some? && ps[i].team.value.code in teams ==>
      ps[i].team.value == teams[ps[i].team.value.code]
  }

  /** Every team joined is in `teams` or among the new ones. */
  predicate TeamsExist(teams: map<string, Team>, r: Saved) {
    forall i :: 0 <= i < |r.participations| && r.participations[i].team.Some? ==>
      r.participations[i].team.value in teams.Values || r.participations[i].team.value in r.newTeams
  }

  /** The teams the save adds are not in the database, and no two of them
      share a code. */
  lemma {:induction false} SavedTeamsAreNew(codeOf: string -> string, teams: map<string, Team>, userIds: seq<nat>,
                                           teamFields: seq<string>, passwords: seq<string>)
    requires ByCode(teams)
    requires |teamFields| >= |userIds|
    requires |passwords| == 0 || |passwords| >= |userIds|
    ensures FreshTeams(teams, Save(codeOf, teams, userIds, teamFields, passwords).newTeams)
    decreases |userIds|
  {
    if |userIds| > 0 {
      var created := CreatedTeam(codeOf, teams, teamFields[0]);
      var known := Known(teams, created);
      var rest := if |passwords| > 0 then passwords[1..] else [];
      SavedTeamsAreNew(codeOf, known, userIds[1..], teamFields[1..], rest);
      var r' := Save(codeOf, known, userIds[1..], teamFields[1..], rest);
      var r := Save(codeOf, teams, userIds, teamFields, passwords);
      assert r.newTeams == created + r'.newTeams;
      FreshPrepend(teams, created, r'.newTeams);
    }
  }

  /** A team with a new code in front of the teams fresh after it keeps
      the sequence fresh. */
  lemma FreshPrepend(teams: map<string, Team>, created: seq<Team>, rest: seq<Team>)
    requires ByCode(teams)
    requires |created| <= 1
    requires created == [] || created[0].code !in teams
    requires FreshTeams(Known(teams, created), rest)
    ensures FreshTeams(teams, created + rest)
  {
    var all := created + rest;
    forall k | 0 <= k < |all|
      ensures all[k].code !in teams
    {
      if k >= |created| {
        assert all[k] == rest[k - |created|];
      }
    }
    forall k, l | 0 <= k < l < |all|
      ensures all[k].code != all[l].code
    {
      assert all[l] == rest[l - |created|];
      if k >= |created| {
        assert all[k] == rest[k - |created|];
      } else {
        assert created[0].code in Known(teams, created);
      }
    }
  }

  /** A row whose team code is in the database joins that very team. */
  lemma {:induction false} SavedJoinsExistingTeam(codeOf: string -> string, teams: map<string, Team>, userIds: seq<nat>,
                                                 teamFields: seq<string>, passwords: seq<string>)
    requires ByCode(teams)
    requires |teamFields| >= |userIds|
    requires |passwords| == 0 || |passwords| >= |userIds|
    ensures JoinsExisting(teams, Save(codeOf, teams, userIds, teamFields, passwords).participations)
    decreases |userIds|
  {
    if |userIds| > 0 {
      var created := CreatedTeam(codeOf, teams, teamFields[0]);
      var known := Known(teams, created);
      var rest := if |passwords| > 0 then passwords[1..] else [];
      SavedJoinsExistingTeam(codeOf, known, userIds[1..], teamFields[1..], rest);
      var r' := Save(codeOf, known, userIds[1..], teamFields[1..], rest);
      var r := Save(codeOf, teams, userIds, teamFields, passwords);
      forall i | 0 < i < |userIds| && r.participations[i].team.Some? && r.participations[i].team.value.code in teams
        ensures r.participations[i].team.value == teams[r.participations[i].team.value.code]
      {
        assert r.participations[i] == r'.participations[i - 1];
      }
    }
  }

  /** Every team a saved participation joins is either already in the
      database or among the teams the save adds. */
  lemma {:induction false} SavedTeamsExist(codeOf: string -> string, teams: map<string, Team>, userIds: seq<nat>,
                                          teamFields: seq<string>, passwords: seq<string>)
    requires ByCode(teams)
    requires |teamFields| >= |userIds|
    requires |passwords| == 0 || |passwords| >= |userIds|
    ensures TeamsExist(teams, Save(codeOf, teams, userIds, teamFields, passwords))
    decreases |userIds|
  {
    if |userIds| > 0 {
      var created := CreatedTeam(codeOf, teams, teamFields[0]);
      var known := Known(teams, created);
      var rest := if |passwords| > 0 then passwords[1..] else [];
      SaveStep(codeOf, teams, userIds, teamFields, passwords);
      SavedTeamsExist(codeOf, known, userIds[1..], teamFields[1..], rest);
      KnownValues(teams, created);
      var team := TeamFor(codeOf, teams, teamFields[0]);
      if team.Some? && codeOf(teamFields[0]) in teams {
        assert team.value in teams.Values;
      }
      TeamsExistStep(teams, known, created, NewParticipation(userIds[0], team, Password(passwords, 0)),
                     Save(codeOf, known, userIds[1..], teamFields[1..], rest));
    }
  }

  /** One step of the "save" loop: the first row's participation and
      created team head those of the rest, saved against the teams known
      after it. */
  lemma SaveStep(codeOf: string -> string, teams: map<string, Team>, userIds: seq<nat>, teamFields: seq<string>,
                 passwords: seq<string>)
    requires ByCode(teams)
    requires 0 < |userIds| <= |teamFields|
    requires |passwords| == 0 || |passwords| >= |userIds|
    ensures var created := CreatedTeam(codeOf, teams, teamFields[0]);
            var r' := Save(codeOf, Known(teams, created), userIds[1..], teamFields[1..],
                           if |passwords| > 0 then passwords[1..] else []);
            var r := Save(codeOf, teams, userIds, teamFields, passwords);
            && r.participations
               == [NewParticipation(userIds[0], TeamFor(codeOf, teams, teamFields[0]), Password(passwords, 0))]
                  + r'.participations
            && r.newTeams == created + r'.newTeams
  {
  }

  /** A team known after a row was known before it or created by it. */
  lemma KnownValues(teams: map<string, Team>, created: seq<Team>)
    requires ByCode(teams)
    requires |created| <= 1
    requires created == [] || created[0].code !in teams
    ensures forall t :: t in Known(teams, created).Values ==> t in teams.Values || t in created
  {
    forall t | t in Known(teams, created).Values
      ensures t in teams.Values || t in created
    {
      var code :| code in Known(teams, created) && Known(teams, created)[code] == t;
      if code in teams && (created == [] || code != created[0].code) {
        assert teams[code] in teams.Values;
      }
    }
  }

  lemma TeamsExistStep(teams: map<string, Team>, known: map<string, Team>, created: seq<Team>,
                       p: NewParticipation, rest: Saved)
    requires forall t :: t in known.Values ==> t in teams.Values || t in created
    requires p.team.Some? ==> p.team.value in teams.Values || p.team.value in created
    requires TeamsExist(known, rest)
    ensures TeamsExist(teams, Saved([p] + rest.participations, created + rest.newTeams))
  {
    var r := Saved([p] + rest.participations, created + rest.newTeams);
    forall i | 1 <= i < |r.participations| && r.participations[i].team.Some?
      ensures r.participations[i].team.value in teams.Values || r.participations[i].team.value in r.newTeams
    {
      assert r.participations[i] == rest.participations[i - 1];
    }
  }

  /** Row `i` has a team field, and no earlier row has one with the same
      code. */
  predicate FirstWithCode(codeOf: string -> string, teamFields: seq<string>, i: nat) {
    && i < |teamFields| && teamFields[i] != ""
    && forall j :: 0 <= j < i ==> teamFields[j] == "" || codeOf(teamFields[j]) != codeOf(teamFields[i])
  }

  /** `t` is the team named by the first of the first `n` rows with its
      code, a code the database does not know. */
  predicate NamedByFirstRow(codeOf: string -> string, teams: map<string, Team>, teamFields: seq<string>, n: nat, t: Team) {
    exists i :: 0 <= i < n && FirstWithCode(codeOf, teamFields, i) && codeOf(teamFields[i]) !in teams
                && t == Team(codeOf(teamFields[i]), teamFields[i])
  }

  /** Each team the save adds has the code and the name of the first row
      that asks for that code. */
  lemma {:induction false} SavedTeamsNamedByFirstRow(codeOf: string -> string, teams: map<string, Team>,
                                                    userIds: seq<nat>, teamFields: seq<string>, passwords: seq<string>)
    requires ByCode(teams)
    requires |teamFields| >= |userIds|
    requires |passwords| == 0 || |passwords| >= |userIds|
    ensures var r := Save(codeOf, teams, userIds, teamFields, passwords);
            forall k :: 0 <= k < |r.newTeams| ==> NamedByFirstRow(codeOf, teams, teamFields, |userIds|, r.newTeams[k])
    decreases |userIds|
  {
    if |userIds| > 0 {
      var created := CreatedTeam(codeOf, teams, teamFields[0]);
      var known := Known(teams, created);
      var rest := if |passwords| > 0 then passwords[1..] else [];
      SaveStep(codeOf, teams, userIds, teamFields, passwords);
      SavedTeamsNamedByFirstRow(codeOf, known, userIds[1..], teamFields[1..], rest);
      var r' := Save(codeOf, known, userIds[1..], teamFields[1..], rest);
      NamedStep(codeOf, teams, teamFields, |userIds|, created, r'.newTeams);
    }
  }

  /** Conversely, the first row asking for each unknown code adds the team
      it names. */
  lemma {:induction false} FirstRowsAddTeams(codeOf: string -> string, teams: map<string, Team>,
                                            userIds: seq<nat>, teamFields: seq<string>, passwords: seq<string>)
    requires ByCode(teams)
    requires |teamFields| >= |userIds|
    requires |passwords| == 0 || |passwords| >= |userIds|
    ensures var r := Save(codeOf, teams, userIds, teamFields, passwords);
            forall i :: 0 <= i < |userIds| && FirstWithCode(codeOf, teamFields, i) && codeOf(teamFields[i]) !in teams ==>
              Team(codeOf(teamFields[i]), teamFields[i]) in r.newTeams
    decreases |userIds|
  {
    if |userIds| > 0 {
      var created := CreatedTeam(codeOf, teams, teamFields[0]);
      var known := Known(teams, created);
      var rest := if |passwords| > 0 then passwords[1..] else [];
      SaveStep(codeOf, teams, userIds, teamFields, passwords);
      FirstRowsAddTeams(codeOf, known, userIds[1..], teamFields[1..], rest);
      var r' := Save(codeOf, known, userIds[1..], teamFields[1..], rest);
      var r := Save(codeOf, teams, userIds, teamFields, passwords);
      forall i | 0 <= i < |userIds| && FirstWithCode(codeOf, teamFields, i) && codeOf(teamFields[i]) !in teams
        ensures Team(codeOf(teamFields[i]), teamFields[i]) in r.newTeams
      {
        if i == 0 {
          assert r.newTeams[0] == Team(codeOf(teamFields[0]), teamFields[0]);
        } else {
          assert teamFields[1..][i - 1] == teamFields[i];
          forall j | 0 <= j < i - 1
            ensures teamFields[1..][j] == "" || codeOf(teamFields[1..][j]) != codeOf(teamFields[1..][i - 1])
          {
            assert teamFields[1..][j] == teamFields[j + 1];
          }
          assert FirstWithCode(codeOf, teamFields[1..], i - 1);
          assert codeOf(teamFields[i]) !in known;
          assert Team(codeOf(teamFields[i]), teamFields[i]) in r'.newTeams;
        }
      }
    }
  }

  /** The first row's created team, followed by teams named by first rows
      among the later ones against the teams known after it, are all named
      by first rows. */
  lemma NamedStep(codeOf: string -> string, teams: map<string, Team>, teamFields: seq<string>, n: nat,
                  created: seq<Team>, later: seq<Team>)
    requires ByCode(teams)
    requires 0 < n <= |teamFields|
    requires created == CreatedTeam(codeOf, teams, teamFields[0])
    requires forall k :: 0 <= k < |later| ==>
               NamedByFirstRow(codeOf, Known(teams, created), teamFields[1..], n - 1, later[k])
    ensures forall k :: 0 <= k < |created + later| ==>
              NamedByFirstRow(codeOf, teams, teamFields, n, (created + later)[k])
  {
    var all := created + later;
    assert teamFields[0] != "" ==> codeOf(teamFields[0]) in Known(teams, created);
    forall k | 0 <= k < |all|
      ensures NamedByFirstRow(codeOf, teams, teamFields, n, all[k])
    {
      if k < |created| {
        assert FirstWithCode(codeOf, teamFields, 0);
      } else {
        assert all[k] == later[k - |created|];
        var i :| && 0 <= i < n - 1 && FirstWithCode(codeOf, teamFields[1..], i)
                 && codeOf(teamFields[1..][i]) !in Known(teams, created)
                 && later[k - |created|] == Team(codeOf(teamFields[1..][i]), teamFields[1..][i]);
        assert teamFields[1..][i] == teamFields[i + 1];
        forall j | 0 <= j < i + 1
          ensures teamFields[j] == "" || codeOf(teamFields[j]) != codeOf(teamFields[i + 1])
        {
          if j > 0 {
            assert teamFields[1..][j - 1] == teamFields[j];
          }
        }
        assert FirstWithCode(codeOf, teamFields, i + 1);
      }
    }
  }

  /** `prepare_team_code`, as the function the "save" action applies to
      each team field. */
  function TeamCodeOf(u: Unicode): string -> string {
    name => PrepareTeamCode(u, name)
  }

  /** The "save" action with its actual team-code function. */
  lemma SaveUsesTeamCode(u: Unicode, teams: map<string, Team>, userIds: seq<nat>,
                         teamFields: seq<string>, passwords: seq<string>)
    requires ByCode(teams)
    requires |teamFields| >= |userIds|
    requires |passwords| == 0 || |passwords| >= |userIds|
    ensures var r := Save(TeamCodeOf(u), teams, userIds, teamFields, passwords);
            forall i :: 0 <= i < |userIds| && r.participations[i].team.Some? ==>
              r.participations[i].team.value.code == PrepareTeamCode(u, teamFields[i])
  {
  }
}

=== FILE: cws_toolbox.dfy ===
/** The two helpers the contest web server adds to its template
    environment (cms/server/contest/jinja2_toolbox.py): the token
    parameters of an object, and whether a contest is listed on the
    contest list page. */
module CwsToolbox {

  /** The attribute-name prefix `extract_token_params` selects. */
  const TokenPrefix: string := "token_"

  /** `extract_token_params(o)`: the attributes whose name starts with
      `token_`, renamed without that prefix.  `attrs` is the object's
      attribute dictionary. */
  function ExtractTokenParams<V>(attrs: map<string, V>): (r: map<string, V>)
    ensures forall k :: k in r <==> TokenPrefix + k in attrs
    ensures forall k :: k in r ==> r[k] == attrs[TokenPrefix + k]
  {
    var names := set k | k in attrs && TokenPrefix <= k :: k[|TokenPrefix|..];
    forall k | TokenPrefix + k in attrs
      ensures k in names
    {
      var full := TokenPrefix + k;
      assert TokenPrefix <= full && full[|TokenPrefix|..] == k;
    }
    forall k | k in names
      ensures TokenPrefix + k in attrs
    {
      var full :| full in attrs && TokenPrefix <= full && full[|TokenPrefix|..] == k;
      assert full == TokenPrefix + k;
    }
    map k | k in names :: attrs[TokenPrefix + k]
  }

  /** Every `token_` attribute reappears under its stripped name, and two
      different attributes never collide there. */
  lemma TokenParamsLoseNothing<V>(attrs: map<string, V>)
    ensures forall k :: k in attrs && TokenPrefix <= k ==>
              k[|TokenPrefix|..] in ExtractTokenParams(attrs)
              && ExtractTokenParams(attrs)[k[|TokenPrefix|..]] == attrs[k]
    ensures forall k1, k2 ::
              (k1 in attrs && k2 in attrs && TokenPrefix <= k1 && TokenPrefix <= k2
               && k1[|TokenPrefix|..] == k2[|TokenPrefix|..]) ==> k1 == k2
  {
    forall k | k in attrs && TokenPrefix <= k
      ensures k[|TokenPrefix|..] in ExtractTokenParams(attrs)
      ensures ExtractTokenParams(attrs)[k[|TokenPrefix|..]] == attrs[k]
    {
      assert TokenPrefix + k[|TokenPrefix|..] == k;
    }
    forall k1, k2 | k1 in attrs && k2 in attrs && TokenPrefix <= k1 && TokenPrefix <= k2
      && k1[|TokenPrefix|..] == k2[|TokenPrefix|..]
      ensures k1 == k2
    {
      assert k1 == TokenPrefix + k1[|TokenPrefix|..];
      assert k2 == TokenPrefix + k2[|TokenPrefix|..];
    }
  }

  /** The times of a contest that decide its listing, in microseconds (the
      resolution of Python's `datetime`). */
  datatype ContestTimes = ContestTimes(start: int, stop: int, analysisEnabled: bool, analysisStop: int)

  /** `timedelta(hours=6)` in microseconds. */
  const SixHours: int := 6 * 60 * 60 * 1000000

  /** The end of a contest for listing purposes: the end of its analysis
      mode when that is enabled, else the end of the contest. */
  function ListedEnd(c: ContestTimes): (r: int)
    ensures c.analysisEnabled ==> r == c.analysisStop
    ensures !c.analysisEnabled ==> r == c.stop
  {
    if c.analysisEnabled then c.analysisStop else c.stop
  }

  /** `contest_visible(entry, now)`: listed from six hours before the start
      up to, but excluding, six hours after the end. */
  function ContestVisible<A>(entry: (A, ContestTimes), now: int): (r: bool)
    ensures r <==> entry.1.start - SixHours <= now < ListedEnd(entry.1) + SixHours
  {
    var (_, c) := entry;
    c.start - SixHours <= now && now < (if c.analysisEnabled then c.analysisStop else c.stop) + SixHours
  }

  /** The first component of the entry plays no part. */
  lemma VisibilityIgnoresFirst<A, B>(a: A, b: B, c: ContestTimes, now: int)
    ensures ContestVisible((a, c), now) == ContestVisible((b, c), now)
  {
  }

  /** A contest is listed while it runs or its analysis is open. */
  lemma RunningContestIsVisible<A>(a: A, c: ContestTimes, now: int)
    requires c.start <= now < ListedEnd(c)
    ensures ContestVisible((a, c), now)
  {
  }

  /** The instants at which a contest is listed form one interval, closed
      at six hours before the start and open at six hours after the end. */
  lemma VisibleTimesAreInterval<A>(a: A, c: ContestTimes, t1: int, t2: int, t3: int)
    requires t1 <= t2 <= t3
    requires ContestVisible((a, c), t1) && ContestVisible((a, c), t3)
    ensures ContestVisible((a, c), t2)
  {
  }

  /** The lower bound is inclusive and the upper one exclusive. */
  lemma VisibilityBounds<A>(a: A, c: ContestTimes)
    requires c.start - SixHours < ListedEnd(c) + SixHours
    ensures ContestVisible((a, c), c.start - SixHours)
    ensures !ContestVisible((a, c), c.start - SixHours - 1)
    ensures ContestVisible((a, c), ListedEnd(c) + SixHours - 1)
    ensures !ContestVisible((a, c), ListedEnd(c) + SixHours)
  {
  }
}

=== FILE: detailed_results.dfy ===
/** The admin "detailed results" printout: one block per visible
    participant, ordered by (last name, first name), listing the attempted
    tasks with their testcase outcomes in Latvian, and the score formatter
    it hands to the template. */
module DetailedResults {
  import opened Wrappers
  import opened Strings
  import opened Rounding
  import opened Sorting
  import opened ContestData

  /** The exception raised for a task whose score type is not a group one. */
  datatype Error = UnsupportedScoreType(taskName: string)

  datatype TaskResult = TaskResult(task: Task, score: real, maxScore: real, status: Status, testResults: seq<TestGroup>)

  datatype ParticipantResult = ParticipantResult(
    participation: Participation,
    maxScore: real,
    totalScore: real,
    tasks: seq<TaskResult>)

  datatype Report = Report(results: seq<ParticipantResult>, partialResults: bool)

  // ---------------------------------------------------------------- outcome text

  /** The fixed outcome-message table: English evaluation messages (the
      untranslated format strings, placeholders included) to Latvian. */
  const Messages: map<string, string> := map[
    "Output is correct" := "Pareizi",
    "Output is partially correct" := "Daļēji pareizi",
    "Output isn't correct" := "Nepareizi",
    "Evaluation didn't produce file %s" := "Trūkst izvaddatu",
    "Execution timed out" := "Laika limits",
    "Execution timed out (wall clock limit exceeded)" := "Laika limits",
    "Execution killed with signal %d (could be triggered by violating memory limits)" := "Izpildes kļūda",
    "Execution killed because of forbidden syscall %s" := "Neatļauta darbība",
    "Execution killed because of forbidden file access" := "Neatļauta piekļuve failiem",
    "Execution failed because the return code was nonzero" := "Izpildes kļūda"
  ]

  /** `__get_result`: the table's text for a known message, the message
      itself otherwise. */
  function OutcomeText(text: string): (r: string)
    ensures text in Messages ==> r == Messages[text]
    ensures text !in Messages ==> r == text
    ensures r != text <==> text in Messages
  {
    if text in Messages then Messages[text] else text
  }

  /** No translated text is itself a message the table knows. */
  lemma TranslationsAreNotMessages()
    ensures forall m :: m in Messages ==> Messages[m] !in Messages
  {
  }

  /** Translating twice is translating once. */
  lemma OutcomeTextIdempotent(text: string)
    ensures OutcomeText(OutcomeText(text)) == OutcomeText(text)
  {
    TranslationsAreNotMessages();
  }

  /** Both timeout messages read the same; unknown messages pass through. */
  lemma OutcomeTextExamples(other: string)
    requires other !in Messages
    ensures OutcomeText("Execution timed out") == OutcomeText("Execution timed out (wall clock limit exceeded)") == "Laika limits"
    ensures OutcomeText("Output is correct") == "Pareizi"
    ensures OutcomeText("Execution failed because the return code was nonzero") == "Izpildes kļūda"
    ensures OutcomeText(other) == other
  {
  }

  // ---------------------------------------------------------------- score text

  /** `__format_score`: score and maximum, each printed with `precision`
      decimals by `fixed` (Python's `"{:.Nf}"` formatting, which is not
      modelled), separated by a slash. */
  function FormatScore(fixed: (real, nat) -> string, score: real, maxScore: real, precision: nat): (r: string)
    ensures |r| == |fixed(score, precision)| + 1 + |fixed(maxScore, precision)|
    ensures r[|fixed(score, precision)|] == '/'
    ensures fixed(score, precision) <= r
  {
    fixed(score, precision) + "/" + fixed(maxScore, precision)
  }

  /** The index of the first `/` of `s`, or `|s|` when it has none. */
  function FirstSlash(s: string): (n: nat)
    ensures n <= |s|
    ensures forall i :: 0 <= i < n ==> s[i] != '/'
    ensures n < |s| ==> s[n] == '/'
  {
    if |s| == 0 || s[0] == '/' then 0 else 1 + FirstSlash(s[1..])
  }

  /** The first `/` after a slash-free prefix is the one that follows it. */
  lemma {:induction false} FirstSlashAfter(a: string, b: string)
    requires '/' !in a
    ensures FirstSlash(a + "/" + b) == |a|
    decreases |a|
  {
    if |a| > 0 {
      assert (a + "/" + b)[1..] == a[1..] + "/" + b;
      FirstSlashAfter(a[1..], b);
    }
  }

  /** As long as a formatted number never holds a `/`, the score text is
      everything before the first `/` and the maximum's text everything
      after it, so two different scores never print alike. */
  lemma FormatScoreSplits(fixed: (real, nat) -> string, score: real, maxScore: real, precision: nat)
    requires '/' !in fixed(score, precision)
    ensures var r := FormatScore(fixed, score, maxScore, precision);
            var n := FirstSlash(r);
            && n < |r|
            && r[..n] == fixed(score, precision)
            && r[n + 1..] == fixed(maxScore, precision)
  {
    var a := fixed(score, precision);
    var b := fixed(maxScore, precision);
    FirstSlashAfter(a, b);
    var r := FormatScore(fixed, score, maxScore, precision);
    assert r == a + "/" + b;
    assert r[..|a|] == a;
    assert r[|a| + 1..] == b;
  }

  // ---------------------------------------------------------------- testcase groups

  function TranslateTestcases(tcs: seq<Testcase>): (r: seq<Testcase>)
    ensures |r| == |tcs|
    ensures forall i :: 0 <= i < |tcs| ==> r[i].outcome == tcs[i].outcome && r[i].text == OutcomeText(tcs[i].text)
  {
    if |tcs| == 0 then []
    else [tcs[0].(text := OutcomeText(tcs[0].text))] + TranslateTestcases(tcs[1..])
  }

  /** The score details with every testcase text translated and nothing
      else changed. */
  function TranslateDetails(groups: seq<TestGroup>): (r: seq<TestGroup>)
    ensures |r| == |groups|
    ensures forall g :: 0 <= g < |groups| ==> |r[g].testcases| == |groups[g].testcases|
    ensures forall g, i :: 0 <= g < |groups| && 0 <= i < |groups[g].testcases| ==>
              && r[g].testcases[i].outcome == groups[g].testcases[i].outcome
              && r[g].testcases[i].text == OutcomeText(groups[g].testcases[i].text)
  {
    if |groups| == 0 then []
    else [TestGroup(TranslateTestcases(groups[0].testcases))] + TranslateDetails(groups[1..])
  }

  // ---------------------------------------------------------------- one task

  /** The status shown for a submission: its result's, or COMPILING when it
      has no result for the active dataset. */
  function StatusOf(sub: Submission): Status {
    match sub.result
    case Some(sr) => sr.status
    case None => Compiling
  }

  /** Task `t`'s score for `p`, rounded at the task's precision. */
  function RoundedScore(s: Scoring, p: Participation, t: Task): real {
    RoundTo(s.scoredSubmission(p, t).score, t.scorePrecision, s.rounding)
  }

  function RoundedScores(s: Scoring, p: Participation, ts: seq<Task>): (xs: seq<real>)
    ensures |xs| == |ts|
  {
    seq(|ts|, i requires 0 <= i < |ts| => RoundedScore(s, p, ts[i]))
  }

  /** The handler only defines a block's status when there is a submission
      or the rounded score is zero (the block is then skipped); otherwise
      the status of the previous task, or none at all, would be shown. */
  predicate StatusDefined(s: Scoring, p: Participation, t: Task) {
    s.scoredSubmission(p, t).submission.Some? || RoundedScore(s, p, t) == 0.0
  }

  /** Whether `p` has a submission for the task, i.e. gets a block for it. */
  function Attempted(s: Scoring, p: Participation): Task -> bool {
    t => s.scoredSubmission(p, t).submission.Some?
  }

  /** What the block of `p` for task `b.task` holds. */
  ghost predicate IsBlockFor(s: Scoring, p: Participation, b: TaskResult) {
    var ss := s.scoredSubmission(p, b.task);
    && ss.submission.Some?
    && b.score == RoundedScore(s, p, b.task)
    && b.maxScore == b.task.scoreType.maxScore
    && b.status == StatusOf(ss.submission.value)
    && b.testResults == (if b.status == Scored then TranslateDetails(ss.submission.value.result.value.scoreDetails) else [])
  }

  /** The block for one task: none when there is no submission and the
      rounded score is zero. */
  function TaskBlock(s: Scoring, p: Participation, t: Task): (r: seq<TaskResult>)
    requires StatusDefined(s, p, t)
    ensures |r| <= 1
    ensures r == [] <==> s.scoredSubmission(p, t).submission.None?
    ensures r != [] ==> r[0].task == t && IsBlockFor(s, p, r[0])
    ensures r != [] && r[0].testResults != [] ==> r[0].status == Scored
  {
    var ss := s.scoredSubmission(p, t);
    var score := RoundedScore(s, p, t);
    match ss.submission
    case Some(sub) =>
      var status := StatusOf(sub);
      var tests := if status == Scored then TranslateDetails(sub.result.value.scoreDetails) else [];
      [TaskResult(t, score, t.scoreType.maxScore, status, tests)]
    case None =>
      if score == 0.0 then [] else assert false; []
  }

  // ---------------------------------------------------------------- one participant

  datatype Blocks = Blocks(tasks: seq<TaskResult>, total: real, partial: bool)

  function TasksOf(bs: seq<TaskResult>): (r: seq<Task>)
    ensures |r| == |bs|
  {
    seq(|bs|, i requires 0 <= i < |bs| => bs[i].task)
  }

  function ScoresOf(bs: seq<TaskResult>): (r: seq<real>)
    ensures |r| == |bs|
  {
    seq(|bs|, i requires 0 <= i < |bs| => bs[i].score)
  }

  /** The inner loop over the contest's tasks for one participant: it
      raises at the first task whose score type is not a group one. */
  function ParticipantTasks(s: Scoring, p: Participation, ts: seq<Task>): (r: Result<Blocks, Error>)
    requires forall i :: 0 <= i < |ts| ==> StatusDefined(s, p, ts[i])
    ensures r.Failure? <==> exists i :: 0 <= i < |ts| && !ts[i].scoreType.Group?
    ensures r.Failure? ==>
              exists i :: && 0 <= i < |ts| && !ts[i].scoreType.Group?
                          && (forall j :: 0 <= j < i ==> ts[j].scoreType.Group?)
                          && r.error == UnsupportedScoreType(ts[i].name)
  {
    if |ts| == 0 then Success(Blocks([], 0.0, false))
    else
      var t := ts[0];
      var ss := s.scoredSubmission(p, t);
      var score := RoundedScore(s, p, t);
      if !t.scoreType.Group? then Failure(UnsupportedScoreType(t.name))
      else
        match ParticipantTasks(s, p, ts[1..])
        case Failure(e) => Failure(e)
        case Success(rest) =>
          Success(Blocks(TaskBlock(s, p, t) + rest.tasks, score + rest.total, ss.partial || rest.partial))
  }

  /** One step of the task loop: the first task's block, score and partial
      flag come before the rest's. */
  lemma ParticipantTasksStep(s: Scoring, p: Participation, ts: seq<Task>)
    requires |ts| > 0
    requires forall i :: 0 <= i < |ts| ==> StatusDefined(s, p, ts[i])
    requires ParticipantTasks(s, p, ts).Success?
    ensures ParticipantTasks(s, p, ts[1..]).Success?
    ensures ParticipantTasks(s, p, ts).value.tasks == TaskBlock(s, p, ts[0]) + ParticipantTasks(s, p, ts[1..]).value.tasks
    ensures ParticipantTasks(s, p, ts).value.total == RoundedScore(s, p, ts[0]) + ParticipantTasks(s, p, ts[1..]).value.total
    ensures ParticipantTasks(s, p, ts).value.partial ==
            (s.scoredSubmission(p, ts[0]).partial || ParticipantTasks(s, p, ts[1..]).value.partial)
  {
  }

  lemma RoundedScoresStep(s: Scoring, p: Participation, ts: seq<Task>)
    requires |ts| > 0
    ensures RoundedScores(s, p, ts) == [RoundedScore(s, p, ts[0])] + RoundedScores(s, p, ts[1..])
  {
  }

  lemma ScoresOfConcat(a: seq<TaskResult>, b: seq<TaskResult>)
    ensures ScoresOf(a + b) == ScoresOf(a) + ScoresOf(b)
  {
  }

  lemma TasksOfConcat(a: seq<TaskResult>, b: seq<TaskResult>)
    ensures TasksOf(a + b) == TasksOf(a) + TasksOf(b)
  {
  }

  /** The participant's `total_score` is the unrounded sum of all rounded
      task scores, skipped tasks included. */
  lemma {:induction false} ParticipantTotal(s: Scoring, p: Participation, ts: seq<Task>)
    requires forall i :: 0 <= i < |ts| ==> StatusDefined(s, p, ts[i])
    requires ParticipantTasks(s, p, ts).Success?
    ensures ParticipantTasks(s, p, ts).value.total == Sum(RoundedScores(s, p, ts))
    decreases |ts|
  {
    if |ts| > 0 {
      ParticipantTasksStep(s, p, ts);
      ParticipantTotal(s, p, ts[1..]);
      RoundedScoresStep(s, p, ts);
    }
  }

  /** The total also equals the sum of the shown blocks' scores: a skipped
      task adds zero. */
  lemma {:induction false} ParticipantTotalShown(s: Scoring, p: Participation, ts: seq<Task>)
    requires forall i :: 0 <= i < |ts| ==> StatusDefined(s, p, ts[i])
    requires ParticipantTasks(s, p, ts).Success?
    ensures ParticipantTasks(s, p, ts).value.total == Sum(ScoresOf(ParticipantTasks(s, p, ts).value.tasks))
    decreases |ts|
  {
    if |ts| > 0 {
      ParticipantTasksStep(s, p, ts);
      ParticipantTotalShown(s, p, ts[1..]);
      assert StatusDefined(s, p, ts[0]);
      BlockScoresStep(TaskBlock(s, p, ts[0]), ParticipantTasks(s, p, ts[1..]).value.tasks,
                      RoundedScore(s, p, ts[0]), Attempted(s, p)(ts[0]));
    }
  }

  lemma BlockScoresStep(block: seq<TaskResult>, rest: seq<TaskResult>, score: real, attempted: bool)
    requires |block| <= 1
    requires block == [] <==> !attempted
    requires block != [] ==> block[0].score == score
    requires !attempted ==> score == 0.0
    ensures Sum(ScoresOf(block + rest)) == score + Sum(ScoresOf(rest))
  {
    ScoresOfConcat(block, rest);
    if attempted {
      assert ScoresOf(block) + ScoresOf(rest) == [score] + ScoresOf(rest);
    } else {
      assert ScoresOf(block) + ScoresOf(rest) == ScoresOf(rest);
    }
  }

  /** A participant without a single submission gets no block and a zero
      total. */
  lemma NoSubmissionsNoBlocks(s: Scoring, p: Participation, ts: seq<Task>)
    requires forall i :: 0 <= i < |ts| ==> s.scoredSubmission(p, ts[i]).submission.None?
    requires forall i :: 0 <= i < |ts| ==> StatusDefined(s, p, ts[i])
    requires ParticipantTasks(s, p, ts).Success?
    ensures ParticipantTasks(s, p, ts).value.tasks == []
    ensures ParticipantTasks(s, p, ts).value.total == 0.0
  {
    ParticipantTotal(s, p, ts);
    ParticipantBlockTasks(s, p, ts);
    SumOfZeros(RoundedScores(s, p, ts));
    assert Filter(ts, Attempted(s, p)) == [];
  }

  /** The participant's partial flag is set by any task, skipped ones
      included. */
  lemma {:induction false} ParticipantPartial(s: Scoring, p: Participation, ts: seq<Task>)
    requires forall i :: 0 <= i < |ts| ==> StatusDefined(s, p, ts[i])
    requires ParticipantTasks(s, p, ts).Success?
    ensures ParticipantTasks(s, p, ts).value.partial <==> exists i :: 0 <= i < |ts| && s.scoredSubmission(p, ts[i]).partial
    decreases |ts|
  {
    if |ts| > 0 {
      ParticipantTasksStep(s, p, ts);
      ParticipantPartial(s, p, ts[1..]);
      if ParticipantTasks(s, p, ts[1..]).value.partial {
        var i :| 0 <= i < |ts[1..]| && s.scoredSubmission(p, ts[1..][i]).partial;
        assert ts[1..][i] == ts[i + 1];
      }
    }
  }

  /** The shown blocks are those of the attempted tasks, in contest order. */
  lemma {:induction false} ParticipantBlockTasks(s: Scoring, p: Participation, ts: seq<Task>)
    requires forall i :: 0 <= i < |ts| ==> StatusDefined(s, p, ts[i])
    requires ParticipantTasks(s, p, ts).Success?
    ensures TasksOf(ParticipantTasks(s, p, ts).value.tasks) == Filter(ts, Attempted(s, p))
    decreases |ts|
  {
    if |ts| > 0 {
      ParticipantTasksStep(s, p, ts);
      ParticipantBlockTasks(s, p, ts[1..]);
      BlockTasksStep(ts[0], TaskBlock(s, p, ts[0]), ParticipantTasks(s, p, ts[1..]).value.tasks, Attempted(s, p)(ts[0]));
    }
  }

  lemma BlockTasksStep(t: Task, block: seq<TaskResult>, rest: seq<TaskResult>, attempted: bool)
    requires |block| <= 1
    requires block == [] <==> !attempted
    requires block != [] ==> block[0].task == t
    ensures TasksOf(block + rest) == (if attempted then [t] + TasksOf(rest) else TasksOf(rest))
  {
    TasksOfConcat(block, rest);
    if attempted {
      assert TasksOf(block) == [t];
    }
  }

  /** Each shown block holds its task's rounded score, maximum, status and
      translated testcases. */
  lemma {:induction false} ParticipantBlockContents(s: Scoring, p: Participation, ts: seq<Task>)
    requires forall i :: 0 <= i < |ts| ==> StatusDefined(s, p, ts[i])
    requires ParticipantTasks(s, p, ts).Success?
    ensures forall b :: b in ParticipantTasks(s, p, ts).value.tasks ==> IsBlockFor(s, p, b)
    decreases |ts|
  {
    if |ts| > 0 {
      ParticipantTasksStep(s, p, ts);
      ParticipantBlockContents(s, p, ts[1..]);
    }
  }

  // ---------------------------------------------------------------- the report

  /** `sorted(..., key=lambda p: (p.user.last_name, p.user.first_name))`:
      plain code-point order, no locale collation. */
  predicate ByName(a: Participation, b: Participation) {
    PairLe((a.user.lastName, a.user.firstName), (b.user.lastName, b.user.firstName))
  }

  lemma ByNameTotalPreorder()
    ensures TotalPreorder(ByName)
  {
    forall a: Participation, b: Participation
      ensures ByName(a, b) || ByName(b, a)
    {
      PairLeTotal((a.user.lastName, a.user.firstName), (b.user.lastName, b.user.firstName));
    }
    forall a: Participation, b: Participation, d: Participation | ByName(a, b) && ByName(b, d)
      ensures ByName(a, d)
    {
      PairLeTransitive((a.user.lastName, a.user.firstName), (b.user.lastName, b.user.firstName),
                       (d.user.lastName, d.user.firstName));
    }
  }

  /** The participants of the report, in report order: all participations
      sorted by name, hidden ones skipped. */
  function NameOrder(ps: seq<Participation>): seq<Participation> {
    Filter(SortBy(ps, ByName), IsVisible)
  }

  /** The report lists exactly the visible participations, ordered by
      (last name, first name), ties kept in database order. */
  lemma NameOrderIsVisibleByName(ps: seq<Participation>)
    ensures multiset(NameOrder(ps)) == multiset(Filter(ps, IsVisible))
    ensures |NameOrder(ps)| == |Filter(ps, IsVisible)|
    ensures forall i :: 0 <= i < |NameOrder(ps)| ==> NameOrder(ps)[i] in ps && !NameOrder(ps)[i].hidden
    ensures forall i, j :: 0 <= i < j < |NameOrder(ps)| ==> ByName(NameOrder(ps)[i], NameOrder(ps)[j])
    ensures forall k: Participation ::
              Filter(NameOrder(ps), TiedTo(ByName, k)) == Filter(Filter(ps, IsVisible), TiedTo(ByName, k))
  {
    var sorted := SortBy(ps, ByName);
    FilterMultiset(sorted, IsVisible, ps);
    assert |NameOrder(ps)| == |multiset(NameOrder(ps))|;
    forall i | 0 <= i < |NameOrder(ps)|
      ensures NameOrder(ps)[i] in ps
    {
      assert NameOrder(ps)[i] in multiset(sorted);
    }
    ByNameTotalPreorder();
    SortBySorted(ps, ByName);
    FilterKeepsOrder(sorted, IsVisible, ByName);
    forall k: Participation
      ensures Filter(NameOrder(ps), TiedTo(ByName, k)) == Filter(Filter(ps, IsVisible), TiedTo(ByName, k))
    {
      SortByStable(ps, ByName, k);
      FilterCommute(sorted, IsVisible, TiedTo(ByName, k));
      FilterCommute(ps, IsVisible, TiedTo(ByName, k));
    }
  }

  /** A participation is in the report exactly when it is in the contest
      and not hidden. */
  lemma InNameOrder(ps: seq<Participation>, x: Participation)
    ensures x in NameOrder(ps) <==> x in ps && !x.hidden
  {
    NameOrderIsVisibleByName(ps);
    if x in ps && !x.hidden {
      var k :| 0 <= k < |ps| && ps[k] == x;
      assert x in multiset(Filter(ps, IsVisible));
    }
    if x in NameOrder(ps) {
      var i :| 0 <= i < |NameOrder(ps)| && NameOrder(ps)[i] == x;
    }
  }

  function MaxScores(ts: seq<Task>): (xs: seq<real>)
    ensures |xs| == |ts|
  {
    seq(|ts|, i requires 0 <= i < |ts| => ts[i].scoreType.maxScore)
  }

  /** The outer loop over the ordered participants. */
  function Results(s: Scoring, ps: seq<Participation>, ts: seq<Task>, maxScore: real): (r: Result<Report, Error>)
    requires forall i, j :: 0 <= i < |ps| && 0 <= j < |ts| ==> StatusDefined(s, ps[i], ts[j])
    ensures r.Failure? <==> |ps| > 0 && exists j :: 0 <= j < |ts| && !ts[j].scoreType.Group?
    ensures r.Failure? ==>
              exists i :: && 0 <= i < |ts| && !ts[i].scoreType.Group?
                          && (forall j :: 0 <= j < i ==> ts[j].scoreType.Group?)
                          && r.error == UnsupportedScoreType(ts[i].name)
    ensures r.Success? ==> |r.value.results| == |ps|
  {
    if |ps| == 0 then Success(Report([], false))
    else
      match ParticipantTasks(s, ps[0], ts)
      case Failure(e) => Failure(e)
      case Success(blocks) =>
        match Results(s, ps[1..], ts, maxScore)
        case Failure(e) => Failure(e)
        case Success(rest) =>
          var result := ParticipantResult(ps[0], maxScore, blocks.total, blocks.tasks);
          Success(Report([result] + rest.results, blocks.partial || rest.partialResults))
  }

  /** One step of the outer loop: the first participant's outcome heads
      the rest's. */
  lemma ResultsStep(s: Scoring, ps: seq<Participation>, ts: seq<Task>, maxScore: real)
    requires |ps| > 0
    requires forall i, j :: 0 <= i < |ps| && 0 <= j < |ts| ==> StatusDefined(s, ps[i], ts[j])
    requires Results(s, ps, ts, maxScore).Success?
    ensures ParticipantTasks(s, ps[0], ts).Success?
    ensures Results(s, ps[1..], ts, maxScore).Success?
    ensures Results(s, ps, ts, maxScore).value.results
            == [ParticipantResult(ps[0], maxScore, ParticipantTasks(s, ps[0], ts).value.total,
                                  ParticipantTasks(s, ps[0], ts).value.tasks)]
               + Results(s, ps[1..], ts, maxScore).value.results
    ensures Results(s, ps, ts, maxScore).value.partialResults
            == (ParticipantTasks(s, ps[0], ts).value.partial
                || Results(s, ps[1..], ts, maxScore).value.partialResults)
  {
  }

  /** Each result is its participant's inner-loop outcome, all carrying the
      same maximum. */
  lemma {:induction false} ResultsAreParticipantTasks(s: Scoring, ps: seq<Participation>, ts: seq<Task>, maxScore: real)
    requires forall i, j :: 0 <= i < |ps| && 0 <= j < |ts| ==> StatusDefined(s, ps[i], ts[j])
    requires Results(s, ps, ts, maxScore).Success?
    ensures forall i :: 0 <= i < |ps| ==>
              && ParticipantTasks(s, ps[i], ts).Success?
              && Results(s, ps, ts, maxScore).value.results[i]
                 == ParticipantResult(ps[i], maxScore, ParticipantTasks(s, ps[i], ts).value.total,
                                      ParticipantTasks(s, ps[i], ts).value.tasks)
    decreases |ps|
  {
    if |ps| > 0 {
      ResultsStep(s, ps, ts, maxScore);
      var rest := Results(s, ps[1..], ts, maxScore).value.results;
      ResultsAreParticipantTasks(s, ps[1..], ts, maxScore);
      forall i | 1 <= i < |ps|
        ensures ParticipantTasks(s, ps[i], ts).Success?
        ensures Results(s, ps, ts, maxScore).value.results[i] == rest[i - 1]
      {
        assert ps[1..][i - 1] == ps[i];
      }
    }
  }

  /** The report-wide partial flag is set by any task of any participant. */
  lemma {:induction false} ResultsPartial(s: Scoring, ps: seq<Participation>, ts: seq<Task>, maxScore: real)
    requires forall i, j :: 0 <= i < |ps| && 0 <= j < |ts| ==> StatusDefined(s, ps[i], ts[j])
    requires Results(s, ps, ts, maxScore).Success?
    ensures Results(s, ps, ts, maxScore).value.partialResults <==>
            exists i, j :: 0 <= i < |ps| && 0 <= j < |ts| && s.scoredSubmission(ps[i], ts[j]).partial
    decreases |ps|
  {
    if |ps| > 0 {
      ResultsStep(s, ps, ts, maxScore);
      ResultsPartial(s, ps[1..], ts, maxScore);
      ParticipantPartial(s, ps[0], ts);
      if Results(s, ps[1..], ts, maxScore).value.partialResults {
        var i, j :| 0 <= i < |ps[1..]| && 0 <= j < |ts| && s.scoredSubmission(ps[1..][i], ts[j]).partial;
        assert ps[1..][i] == ps[i + 1];
      }
      if exists i, j :: 0 <= i < |ps| && 0 <= j < |ts| && s.scoredSubmission(ps[i], ts[j]).partial {
        var i, j :| 0 <= i < |ps| && 0 <= j < |ts| && s.scoredSubmission(ps[i], ts[j]).partial;
        if i > 0 {
          assert ps[1..][i - 1] == ps[i];
        }
      }
    }
  }

  /** Every visible participation with a task it has no submission for
      scores zero there, rounded. */
  ghost predicate NoStaleStatus(c: Contest, s: Scoring) {
    forall p, j :: p in c.participations && !p.hidden && 0 <= j < |c.tasks| ==> StatusDefined(s, p, c.tasks[j])
  }

  /** `DetailedResultsHandler.get`: the report, or the exception raised for
      the first non-group task once some participant is visible. */
  function Detailed(c: Contest, s: Scoring): (r: Result<Report, Error>)
    requires NoStaleStatus(c, s)
    ensures r.Failure? <==>
              |Filter(c.participations, IsVisible)| > 0 && exists j :: 0 <= j < |c.tasks| && !c.tasks[j].scoreType.Group?
    ensures r.Failure? ==>
              exists i :: && 0 <= i < |c.tasks| && !c.tasks[i].scoreType.Group?
                          && (forall j :: 0 <= j < i ==> c.tasks[j].scoreType.Group?)
                          && r.error == UnsupportedScoreType(c.tasks[i].name)
    ensures r.Success? ==> |r.value.results| == |Filter(c.participations, IsVisible)|
  {
    NameOrderIsVisibleByName(c.participations);
    Results(s, NameOrder(c.participations), c.tasks, Sum(MaxScores(c.tasks)))
  }

  /** What a successful report holds: one result per participant in
      `NameOrder`, each with the summed maximum of all tasks, the unrounded
      sum of its rounded task scores, and the blocks of its attempted
      tasks. */
  lemma DetailedContents(c: Contest, s: Scoring)
    requires NoStaleStatus(c, s)
    requires Detailed(c, s).Success?
    ensures var order := NameOrder(c.participations);
            var results := Detailed(c, s).value.results;
            && |results| == |order|
            && forall i :: 0 <= i < |order| ==>
                 && results[i].participation == order[i]
                 && results[i].maxScore == Sum(MaxScores(c.tasks))
                 && results[i].totalScore == Sum(RoundedScores(s, order[i], c.tasks))
                 && TasksOf(results[i].tasks) == Filter(c.tasks, Attempted(s, order[i]))
                 && (forall b :: b in results[i].tasks ==> IsBlockFor(s, order[i], b))
  {
    var order := NameOrder(c.participations);
    var maxScore := Sum(MaxScores(c.tasks));
    NameOrderIsVisibleByName(c.participations);
    ResultsAreParticipantTasks(s, order, c.tasks, maxScore);
    forall i | 0 <= i < |order|
      ensures Sum(RoundedScores(s, order[i], c.tasks)) == ParticipantTasks(s, order[i], c.tasks).value.total
      ensures TasksOf(ParticipantTasks(s, order[i], c.tasks).value.tasks) == Filter(c.tasks, Attempted(s, order[i]))
      ensures forall b :: b in ParticipantTasks(s, order[i], c.tasks).value.tasks ==> IsBlockFor(s, order[i], b)
    {
      ParticipantTotal(s, order[i], c.tasks);
      ParticipantBlockTasks(s, order[i], c.tasks);
      ParticipantBlockContents(s, order[i], c.tasks);
    }
  }

  /** The report-wide partial flag is set by any task of any visible
      participant, whether or not that task's block is shown. */
  lemma DetailedPartial(c: Contest, s: Scoring)
    requires NoStaleStatus(c, s)
    requires Detailed(c, s).Success?
    ensures Detailed(c, s).value.partialResults <==>
            exists p, j :: p in c.participations && !p.hidden && 0 <= j < |c.tasks| && s.scoredSubmission(p, c.tasks[j]).partial
  {
    var order := NameOrder(c.participations);
    NameOrderStatusDefined(c, s);
    forall x
      ensures x in order <==> x in c.participations && !x.hidden
    {
      InNameOrder(c.participations, x);
    }
    ResultsPartialMembers(s, c.participations, order, c.tasks, Sum(MaxScores(c.tasks)));
  }

  /** `ResultsPartial` restated over the members of the participant list. */
  lemma ResultsPartialMembers(s: Scoring, ps: seq<Participation>, order: seq<Participation>, ts: seq<Task>, maxScore: real)
    requires forall x :: x in order <==> x in ps && !x.hidden
    requires forall i, j :: 0 <= i < |order| && 0 <= j < |ts| ==> StatusDefined(s, order[i], ts[j])
    requires Results(s, order, ts, maxScore).Success?
    ensures Results(s, order, ts, maxScore).value.partialResults <==>
            exists p, j :: p in ps && !p.hidden && 0 <= j < |ts| && s.scoredSubmission(p, ts[j]).partial
  {
    ResultsPartial(s, order, ts, maxScore);
    if Results(s, order, ts, maxScore).value.partialResults {
      var i, j :| 0 <= i < |order| && 0 <= j < |ts| && s.scoredSubmission(order[i], ts[j]).partial;
      assert order[i] in order;
    }
    if exists p, j :: p in ps && !p.hidden && 0 <= j < |ts| && s.scoredSubmission(p, ts[j]).partial {
      var p, j :| p in ps && !p.hidden && 0 <= j < |ts| && s.scoredSubmission(p, ts[j]).partial;
      var i :| 0 <= i < |order| && order[i] == p;
    }
  }

  /** Every participant of the report has a status for every task. */
  lemma NameOrderStatusDefined(c: Contest, s: Scoring)
    requires NoStaleStatus(c, s)
    ensures forall i, j :: 0 <= i < |NameOrder(c.participations)| && 0 <= j < |c.tasks| ==>
              StatusDefined(s, NameOrder(c.participations)[i], c.tasks[j])
  {
    forall i | 0 <= i < |NameOrder(c.participations)|
      ensures NameOrder(c.participations)[i] in c.participations && !NameOrder(c.participations)[i].hidden
    {
      InNameOrder(c.participations, NameOrder(c.participations)[i]);
    }
  }
}

=== FILE: go_language.dfy ===
/** The Go language definition of the grading service
    (cms/grading/languages/go.py): its fixed properties and the single
    command that compiles a submission. */
module GoLanguage {

  /** What a compiled-language definition states about itself. */
  datatype Language = Language(name: string, sourceExtensions: seq<string>, requiresMultithreading: bool)

  /** `Go()`: named "Go", sources end in `.go`, and the compiler needs more
      than one thread. */
  function Go(): (l: Language)
    ensures l.name == "Go"
    ensures l.sourceExtensions == [".go"]
    ensures l.requiresMultithreading
  {
    Language("Go", [".go"], true)
  }

  /** `get_compilation_commands`: one `go build` of the first source into
      the executable.  An empty source list makes the original index out of
      range. */
  function CompilationCommands(sources: seq<string>, executable: string, forEvaluation: bool): (r: seq<seq<string>>)
    requires |sources| > 0
    ensures |r| == 1 && |r[0]| == 5
    ensures r[0][..3] == ["/usr/bin/go", "build", "-o"]
    ensures r[0][3] == executable && r[0][4] == sources[0]
  {
    [["/usr/bin/go", "build", "-o", executable, sources[0]]]
  }

  /** Only the first source and the executable's name matter: further
      sources and the evaluation flag change nothing. */
  lemma CompilationIgnoresRest(s1: seq<string>, s2: seq<string>, executable: string, f1: bool, f2: bool)
    requires |s1| > 0 && |s2| > 0 && s1[0] == s2[0]
    ensures CompilationCommands(s1, executable, f1) == CompilationCommands(s2, executable, f2)
  {
  }

  /** Different executables give different commands, as do different
      first sources. */
  lemma CompilationCommandsInjective(s1: seq<string>, s2: seq<string>, e1: string, e2: string, f: bool)
    requires |s1| > 0 && |s2| > 0
    requires CompilationCommands(s1, e1, f) == CompilationCommands(s2, e2, f)
    ensures e1 == e2 && s1[0] == s2[0]
  {
    assert CompilationCommands(s1, e1, f)[0][3] == e1;
    assert CompilationCommands(s1, e1, f)[0][4] == s1[0];
  }
}

=== FILE: posix_path.dfy ===
/** The `os.path` functions the CSV user loader uses, with POSIX
    semantics: `basename`, `dirname`, `split` and `join` on `/`-separated
    paths.  Paths are plain strings; nothing touches a file system. */
module PosixPath {

  predicate NoSlash(s: string) {
    forall i :: 0 <= i < |s| ==> s[i] != '/'
  }

  /** The length of the part of `p` up to and including its last `/`
      (0 when there is none). */
  function HeadLength(p: string): (n: nat)
    ensures n <= |p|
    ensures n > 0 ==> p[n - 1] == '/'
    ensures NoSlash(p[n..])
  {
    if |p| == 0 || p[|p| - 1] == '/' then |p|
    else
      var n := HeadLength(p[..|p| - 1]);
      assert p[n..] == p[..|p| - 1][n..] + [p[|p| - 1]];
      n
  }

  /** `os.path.basename(p)`: what follows the last `/`. */
  function Basename(p: string): (r: string)
    ensures NoSlash(r)
    ensures |r| <= |p| && p[|p| - |r|..] == r
    ensures |r| < |p| ==> p[|p| - |r| - 1] == '/'
  {
    p[HeadLength(p)..]
  }

  /** `s.rstrip("/")`. */
  function StripTrailingSlashes(s: string): (r: string)
    ensures r <= s
    ensures |r| == 0 || r[|r| - 1] != '/'
    ensures forall i :: |r| <= i < |s| ==> s[i] == '/'
  {
    if |s| == 0 || s[|s| - 1] != '/' then s else StripTrailingSlashes(s[..|s| - 1])
  }

  predicate AllSlashes(s: string) {
    forall i :: 0 <= i < |s| ==> s[i] == '/'
  }

  /** `os.path.dirname(p)`: everything before the last component, with its
      trailing slashes removed unless it consists of slashes only. */
  function Dirname(p: string): (r: string)
    ensures r <= p
    ensures AllSlashes(p[..HeadLength(p)]) ==> r == p[..HeadLength(p)]
    ensures !AllSlashes(p[..HeadLength(p)]) ==>
              && r <= p[..HeadLength(p)]
              && |r| > 0 && r[|r| - 1] != '/'
              && forall i :: |r| <= i < HeadLength(p) ==> p[i] == '/'
  {
    var head := p[..HeadLength(p)];
    if head != [] && !AllSlashes(head) then StripTrailingSlashes(head) else head
  }

  /** `os.path.split(p)`: the directory part and the last component. */
  function Split(p: string): (r: (string, string))
    ensures r.0 == Dirname(p) && r.1 == Basename(p)
    ensures r.0 <= p && |r.0| + |r.1| <= |p|
  {
    (Dirname(p), Basename(p))
  }

  /** `os.path.join(a, b)`. */
  function Join(a: string, b: string): (r: string)
    ensures |b| > 0 && b[0] == '/' ==> r == b
    ensures (|b| == 0 || b[0] != '/') ==> a <= r
    ensures (|b| == 0 || b[0] != '/') && (|a| == 0 || a[|a| - 1] == '/') ==> r == a + b
    ensures (|b| == 0 || b[0] != '/') && |a| > 0 && a[|a| - 1] != '/' ==> r == a + "/" + b
  {
    if |b| > 0 && b[0] == '/' then b
    else if |a| == 0 || a[|a| - 1] == '/' then a + b
    else a + "/" + b
  }

  /** Joining a plain name onto a directory gives a path whose last
      component is that name. */
  lemma BasenameOfJoin(a: string, b: string)
    requires |b| > 0 && NoSlash(b)
    ensures Basename(Join(a, b)) == b
  {
    var r := Join(a, b);
    var q := r[..|r| - |b|];
    assert r == q + b;
    HeadLengthAppend(q, b);
  }

  /** A name without `/` after a directory prefix is all of the last
      component. */
  lemma {:induction false} HeadLengthAppend(q: string, b: string)
    requires |q| == 0 || q[|q| - 1] == '/'
    requires NoSlash(b)
    ensures HeadLength(q + b) == |q|
    decreases |b|
  {
    if |b| > 0 {
      var p := q + b;
      assert p[..|p| - 1] == q + b[..|b| - 1];
      HeadLengthAppend(q, b[..|b| - 1]);
    } else {
      assert q + b == q;
    }
  }

  /** The head `split` strips and the last component rebuild the path. */
  lemma HeadAndBasename(p: string)
    ensures p[..HeadLength(p)] + Basename(p) == p
  {
  }

  /** `split` undoes `join` of a directory without a trailing slash and a
      plain name. */
  lemma SplitOfJoin(d: string, name: string)
    requires |d| > 0 && d[|d| - 1] != '/'
    requires |name| > 0 && NoSlash(name)
    ensures Split(Join(d, name)) == (d, name)
  {
    var r := Join(d, name);
    assert r == (d + "/") + name;
    HeadLengthAppend(d + "/", name);
    BasenameOfJoin(d, name);
    var head := r[..HeadLength(r)];
    assert head == d + "/";
    assert head[|head| - 1 - 1] != '/';
    assert StripTrailingSlashes(d) == d;
  }
}

=== FILE: ranking_csv.dfy ===
/** The CSV branch of the admin ranking page and the `show_teams` flag it
    shares with the other formats.  Cells are kept as values; the csv
    writer's quoting and text encoding are not modelled. */
module RankingCsv {
  import opened Wrappers
  import opened Strings
  import opened Rounding
  import opened Sorting
  import opened ContestData

  datatype Cell = Text(text: string) | Num(value: real)

  /** `show_teams`: some participation, hidden ones included, has a team. */
  function ShowTeams(ps: seq<Participation>): (r: bool)
    ensures r <==> exists i :: 0 <= i < |ps| && ps[i].team.Some?
  {
    |ps| > 0 && (ps[0].team.Some? || ShowTeams(ps[1..]))
  }

  /** Number of columns before the first task column. */
  function Lead(showTeams: bool): nat {
    if showTeams then 3 else 2
  }

  function RowWidth(taskCount: nat, showTeams: bool): nat {
    Lead(showTeams) + 2 * taskCount + 2
  }

  function PartialMark(partial: bool): Cell {
    if partial then Text("*") else Text("")
  }

  function TaskHeaders(tasks: seq<Task>): (h: seq<Cell>)
    ensures |h| == 2 * |tasks|
    ensures forall i :: 0 <= i < |tasks| ==> h[2 * i] == Text(tasks[i].name) && h[2 * i + 1] == Text("P")
  {
    if |tasks| == 0 then []
    else
      var rest := TaskHeaders(tasks[1..]);
      TaskHeadersCons(tasks, rest);
      [Text(tasks[0].name), Text("P")] + rest
  }

  lemma TaskHeadersCons(tasks: seq<Task>, rest: seq<Cell>)
    requires |tasks| > 0 && |rest| == 2 * (|tasks| - 1)
    requires forall i :: 0 <= i < |tasks| - 1 ==> rest[2 * i] == Text(tasks[i + 1].name) && rest[2 * i + 1] == Text("P")
    ensures var h := [Text(tasks[0].name), Text("P")] + rest;
            forall i :: 0 <= i < |tasks| ==> h[2 * i] == Text(tasks[i].name) && h[2 * i + 1] == Text("P")
  {
    var h := [Text(tasks[0].name), Text("P")] + rest;
    forall i | 1 <= i < |tasks|
      ensures h[2 * i] == Text(tasks[i].name) && h[2 * i + 1] == Text("P")
    {
      assert h[2 * i] == rest[2 * (i - 1)] && h[2 * i + 1] == rest[2 * (i - 1) + 1];
    }
  }

  /** The header row: `Username, User, [Team,] <task>, P, ..., Global, P`. */
  function Header(tasks: seq<Task>, showTeams: bool): (h: seq<Cell>)
    ensures |h| == RowWidth(|tasks|, showTeams)
    ensures h[0] == Text("Username") && h[1] == Text("User")
    ensures showTeams ==> h[2] == Text("Team")
    ensures forall i :: 0 <= i < |tasks| ==>
              h[Lead(showTeams) + 2 * i] == Text(tasks[i].name) && h[Lead(showTeams) + 2 * i + 1] == Text("P")
    ensures h[|h| - 2] == Text("Global") && h[|h| - 1] == Text("P")
  {
    [Text("Username"), Text("User")]
    + (if showTeams then [Text("Team")] else [])
    + TaskHeaders(tasks)
    + [Text("Global"), Text("P")]
  }

  function TeamName(p: Participation): string {
    match p.team
    case Some(team) => team.name
    case None => ""
  }

  /** Task `t`'s score for `p` rounded at the task's precision. */
  function RoundedTaskScore(s: Scoring, p: Participation, t: Task): real {
    RoundTo(s.taskScore(p, t).score, t.scorePrecision, s.rounding)
  }

  function RoundedTaskScores(s: Scoring, p: Participation, tasks: seq<Task>): (xs: seq<real>)
    ensures |xs| == |tasks|
  {
    seq(|tasks|, i requires 0 <= i < |tasks| => RoundedTaskScore(s, p, tasks[i]))
  }

  /** The first `k` task column pairs of `row`, which start at `lead`,
      hold the rounded scores and partial marks of the first `k` tasks. */
  ghost predicate TaskCells(s: Scoring, p: Participation, tasks: seq<Task>, lead: nat, row: seq<Cell>, k: nat)
    requires k <= |tasks| && lead + 2 * k <= |row|
  {
    forall i :: 0 <= i < k ==>
      && row[lead + 2 * i] == Num(RoundedTaskScore(s, p, tasks[i]))
      && row[lead + 2 * i + 1] == PartialMark(s.taskScore(p, tasks[i]).partial)
  }

  /** What a data row for `p` holds, column by column. */
  ghost predicate IsRow(c: Contest, s: Scoring, showTeams: bool, p: Participation, row: seq<Cell>) {
    var lead := Lead(showTeams);
    && |row| == RowWidth(|c.tasks|, showTeams)
    && row[0] == Text(p.user.username)
    && row[1] == Text(p.user.firstName + " " + p.user.lastName)
    && (showTeams ==> row[2] == Text(TeamName(p)))
    && TaskCells(s, p, c.tasks, lead, row, |c.tasks|)
    && row[|row| - 2] == Num(RoundTo(Sum(RoundedTaskScores(s, p, c.tasks)), c.scorePrecision, s.rounding))
    && row[|row| - 1] == PartialMark(exists i :: 0 <= i < |c.tasks| && s.taskScore(p, c.tasks[i]).partial)
  }

  lemma TaskCellsSnoc(s: Scoring, p: Participation, tasks: seq<Task>, row: seq<Cell>, k: nat)
    requires k < |tasks| && |row| == 2 * k
    requires TaskCells(s, p, tasks, 0, row, k)
    ensures TaskCells(s, p, tasks, 0,
                      row + [Num(RoundedTaskScore(s, p, tasks[k])), PartialMark(s.taskScore(p, tasks[k]).partial)], k + 1)
  {
  }

  /** Task cells keep their meaning when other cells are put around them. */
  lemma TaskCellsShift(s: Scoring, p: Participation, tasks: seq<Task>, prefix: seq<Cell>, cells: seq<Cell>, suffix: seq<Cell>)
    requires |cells| == 2 * |tasks|
    requires TaskCells(s, p, tasks, 0, cells, |tasks|)
    ensures TaskCells(s, p, tasks, |prefix|, prefix + cells + suffix, |tasks|)
  {
    var row := prefix + cells + suffix;
    forall i | 0 <= i < |tasks|
      ensures row[|prefix| + 2 * i] == cells[2 * i] && row[|prefix| + 2 * i + 1] == cells[2 * i + 1]
    {
    }
  }

  /** The task columns of a row, with the running total of the rounded
      task scores and whether any task was partial. */
  method TaskColumns(s: Scoring, p: Participation, tasks: seq<Task>) returns (cells: seq<Cell>, score: real, partial: bool)
    ensures |cells| == 2 * |tasks|
    ensures TaskCells(s, p, tasks, 0, cells, |tasks|)
    ensures score == Sum(RoundedTaskScores(s, p, tasks))
    ensures partial <==> exists i :: 0 <= i < |tasks| && s.taskScore(p, tasks[i]).partial
  {
    score := 0.0;
    partial := false;
    cells := [];
    ghost var scores := RoundedTaskScores(s, p, tasks);
    var k := 0;
    while k < |tasks|
      invariant 0 <= k <= |tasks|
      invariant |cells| == 2 * k
      invariant TaskCells(s, p, tasks, 0, cells, k)
      invariant score == Sum(scores[..k])
      invariant partial <==> exists i :: 0 <= i < k && s.taskScore(p, tasks[i]).partial
    {
      var task := tasks[k];
      var ts := s.taskScore(p, task);
      var tScore := RoundTo(ts.score, task.scorePrecision, s.rounding);
      SumTakeSnoc(scores, k);
      TaskCellsSnoc(s, p, tasks, cells, k);
      score := score + tScore;
      partial := partial || ts.partial;
      cells := cells + [Num(tScore), PartialMark(ts.partial)];
      k := k + 1;
    }
    assert scores[..k] == scores;
  }

  /** One data row, built as the handler's inner loop builds it. */
  method Row(c: Contest, s: Scoring, showTeams: bool, p: Participation) returns (row: seq<Cell>)
    ensures IsRow(c, s, showTeams, p, row)
  {
    var prefix := [Text(p.user.username), Text(p.user.firstName + " " + p.user.lastName)];
    if showTeams {
      prefix := prefix + [Text(TeamName(p))];
    }
    var cells, score, partial := TaskColumns(s, p, c.tasks);
    var suffix := [Num(RoundTo(score, c.scorePrecision, s.rounding)), PartialMark(partial)];
    TaskCellsShift(s, p, c.tasks, prefix, cells, suffix);
    row := prefix + cells + suffix;
  }

  /** The Global `P` column is starred exactly when some task's `P`
      column is. */
  lemma GlobalMarkIffTaskMark(c: Contest, s: Scoring, showTeams: bool, p: Participation, row: seq<Cell>)
    requires IsRow(c, s, showTeams, p, row)
    ensures row[|row| - 1] == Text("*") <==>
            exists i :: 0 <= i < |c.tasks| && row[Lead(showTeams) + 2 * i + 1] == Text("*")
  {
    if row[|row| - 1] == Text("*") {
      var i :| 0 <= i < |c.tasks| && s.taskScore(p, c.tasks[i]).partial;
      assert row[Lead(showTeams) + 2 * i + 1] == Text("*");
    } else {
      forall i | 0 <= i < |c.tasks|
        ensures row[Lead(showTeams) + 2 * i + 1] != Text("*")
      {
        assert !s.taskScore(p, c.tasks[i]).partial;
      }
    }
  }

  /** `sorted(..., key=lambda p: p.user.username)`. */
  predicate ByUsername(a: Participation, b: Participation) {
    LexLe(a.user.username, b.user.username)
  }

  lemma ByUsernameTotalPreorder()
    ensures TotalPreorder(ByUsername)
  {
    forall a: Participation, b: Participation
      ensures ByUsername(a, b) || ByUsername(b, a)
    {
      LexLeTotal(a.user.username, b.user.username);
    }
    forall a: Participation, b: Participation, d: Participation | ByUsername(a, b) && ByUsername(b, d)
      ensures ByUsername(a, d)
    {
      LexLeTransitive(a.user.username, b.user.username, d.user.username);
    }
  }

  /** The participations that get a data row, in row order: the handler
      sorts all of them by username and skips the hidden ones. */
  function CsvOrder(ps: seq<Participation>): seq<Participation> {
    Filter(SortBy(ps, ByUsername), IsVisible)
  }

  /** The data rows are exactly the visible participations, in ascending
      username order, ties kept in database order. */
  lemma CsvOrderIsVisibleByUsername(ps: seq<Participation>)
    ensures multiset(CsvOrder(ps)) == multiset(Filter(ps, IsVisible))
    ensures |CsvOrder(ps)| == |Filter(ps, IsVisible)|
    ensures forall i :: 0 <= i < |CsvOrder(ps)| ==> !CsvOrder(ps)[i].hidden
    ensures forall i, j :: 0 <= i < j < |CsvOrder(ps)| ==>
              LexLe(CsvOrder(ps)[i].user.username, CsvOrder(ps)[j].user.username)
    ensures forall k: Participation ::
              Filter(CsvOrder(ps), TiedTo(ByUsername, k)) == Filter(Filter(ps, IsVisible), TiedTo(ByUsername, k))
  {
    var sorted := SortBy(ps, ByUsername);
    FilterMultiset(sorted, IsVisible, ps);
    assert |CsvOrder(ps)| == |multiset(CsvOrder(ps))|;
    ByUsernameTotalPreorder();
    SortBySorted(ps, ByUsername);
    FilterKeepsOrder(sorted, IsVisible, ByUsername);
    forall k: Participation
      ensures Filter(CsvOrder(ps), TiedTo(ByUsername, k)) == Filter(Filter(ps, IsVisible), TiedTo(ByUsername, k))
    {
      SortByStable(ps, ByUsername, k);
      FilterCommute(sorted, IsVisible, TiedTo(ByUsername, k));
      FilterCommute(ps, IsVisible, TiedTo(ByUsername, k));
    }
  }

  lemma CsvOrderLength(ps: seq<Participation>)
    ensures |CsvOrder(ps)| == |Filter(ps, IsVisible)|
  {
    CsvOrderIsVisibleByUsername(ps);
  }

  /** `rows` is the header followed by one row per element of `order`. */
  ghost predicate RowsFor(c: Contest, s: Scoring, showTeams: bool, order: seq<Participation>, rows: seq<seq<Cell>>) {
    && |rows| == 1 + |order|
    && rows[0] == Header(c.tasks, showTeams)
    && forall i :: 1 <= i < |rows| ==> IsRow(c, s, showTeams, order[i - 1], rows[i])
  }

  lemma AppendRow(c: Contest, s: Scoring, showTeams: bool, order: seq<Participation>, rows: seq<seq<Cell>>,
                  p: Participation, row: seq<Cell>)
    requires RowsFor(c, s, showTeams, order, rows)
    requires IsRow(c, s, showTeams, p, row)
    ensures RowsFor(c, s, showTeams, order + [p], rows + [row])
  {
    var rows' := rows + [row];
    var order' := order + [p];
    forall i | 1 <= i < |rows'|
      ensures IsRow(c, s, showTeams, order'[i - 1], rows'[i])
    {
      if i < |rows| {
        assert rows'[i] == rows[i] && order'[i - 1] == order[i - 1];
      }
    }
  }

  lemma RowsWidth(c: Contest, s: Scoring, showTeams: bool, order: seq<Participation>, rows: seq<seq<Cell>>)
    requires RowsFor(c, s, showTeams, order, rows)
    ensures forall i :: 0 <= i < |rows| ==> |rows[i]| == RowWidth(|c.tasks|, showTeams)
  {
    forall i | 1 <= i < |rows|
      ensures |rows[i]| == RowWidth(|c.tasks|, showTeams)
    {
      assert IsRow(c, s, showTeams, order[i - 1], rows[i]);
    }
  }

  /** One step of the handler's outer loop: a row for `p` unless it is
      hidden. */
  method AddRow(c: Contest, s: Scoring, showTeams: bool, order: seq<Participation>, rows: seq<seq<Cell>>,
                p: Participation) returns (rows': seq<seq<Cell>>)
    requires RowsFor(c, s, showTeams, order, rows)
    ensures RowsFor(c, s, showTeams, if p.hidden then order else order + [p], rows')
  {
    rows' := rows;
    if !p.hidden {
      var row := Row(c, s, showTeams, p);
      AppendRow(c, s, showTeams, order, rows, p, row);
      rows' := rows + [row];
    }
  }

  /** The whole CSV file: header row, then one row per visible
      participation in `CsvOrder`. */
  method RankingCsv(c: Contest, s: Scoring) returns (rows: seq<seq<Cell>>)
    ensures |rows| == 1 + |CsvOrder(c.participations)|
    ensures |rows| == 1 + |Filter(c.participations, IsVisible)|
    ensures rows[0] == Header(c.tasks, ShowTeams(c.participations))
    ensures forall i :: 1 <= i < |rows| ==>
              IsRow(c, s, ShowTeams(c.participations), CsvOrder(c.participations)[i - 1], rows[i])
    ensures forall i :: 0 <= i < |rows| ==> |rows[i]| == RowWidth(|c.tasks|, ShowTeams(c.participations))
  {
    var showTeams := ShowTeams(c.participations);
    rows := [Header(c.tasks, showTeams)];
    var sorted := SortBy(c.participations, ByUsername);
    var k := 0;
    assert sorted[..0] == [];
    while k < |sorted|
      invariant 0 <= k <= |sorted|
      invariant RowsFor(c, s, showTeams, Filter(sorted[..k], IsVisible), rows)
    {
      FilterTakeSnoc(sorted, k, IsVisible);
      rows := AddRow(c, s, showTeams, Filter(sorted[..k], IsVisible), rows, sorted[k]);
      k := k + 1;
    }
    assert sorted[..k] == sorted;
    CsvOrderLength(c.participations);
    RowsWidth(c, s, showTeams, CsvOrder(c.participations), rows);
  }
}

=== FILE: rounding.dfy ===
/** Python's `round(x, ndigits)` on exact decimals.  Python 2 (the
    interpreter the ranking handler names in its first line) rounds a tie
    away from zero; Python 3 rounds it to the even neighbour.  Both are
    modelled; binary floating point is not. */
module Rounding {

  datatype Mode = HalfEven | HalfAway

  function Pow10(p: nat): (r: nat)
    ensures r >= 1
  {
    if p == 0 then 1 else 10 * Pow10(p - 1)
  }

  /** The integer nearest to `x`, a tie going to the even neighbour. */
  function RoundHalfEven(x: real): (r: int)
    ensures x - 0.5 <= r as real <= x + 0.5
    ensures (r as real - x == 0.5 || x - r as real == 0.5) ==> r % 2 == 0
  {
    var f := x.Floor;
    var frac := x - f as real;
    if frac < 0.5 then f
    else if frac > 0.5 then f + 1
    else if f % 2 == 0 then f
    else f + 1
  }

  /** The integer nearest to `x`, a tie going away from zero. */
  function RoundHalfAway(x: real): (r: int)
    ensures x - 0.5 <= r as real <= x + 0.5
    ensures r as real - x == 0.5 ==> x >= 0.0
    ensures x - r as real == 0.5 ==> x < 0.0
  {
    if x >= 0.0 then (x + 0.5).Floor else -((-x + 0.5).Floor)
  }

  function RoundInt(x: real, mode: Mode): (r: int)
    ensures x - 0.5 <= r as real <= x + 0.5
    ensures mode == HalfEven && (r as real - x == 0.5 || x - r as real == 0.5) ==> r % 2 == 0
    ensures mode == HalfAway && r as real - x == 0.5 ==> x >= 0.0
    ensures mode == HalfAway && x - r as real == 0.5 ==> x < 0.0
  {
    match mode
    case HalfEven => RoundHalfEven(x)
    case HalfAway => RoundHalfAway(x)
  }

  /** `x` shifted `p` decimal places to the left. */
  function Scale(x: real, p: nat): real {
    x * Pow10(p) as real
  }

  /** `x` has at most `p` decimal digits. */
  predicate AtPrecision(x: real, p: nat) {
    Scale(x, p).Floor as real == Scale(x, p)
  }

  /** Shifting `m / 10^p` back by `p` places gives `m`. */
  lemma ScaleOfQuotient(m: real, p: nat)
    ensures Scale(m / Pow10(p) as real, p) == m
  {
  }

  /** `round(x, p)`: the decimal with at most `p` digits nearest to `x`. */
  function RoundTo(x: real, p: nat, mode: Mode): (r: real)
    ensures AtPrecision(r, p)
    ensures -0.5 <= Scale(r - x, p) <= 0.5
    ensures mode == HalfEven && (Scale(r - x, p) == 0.5 || Scale(r - x, p) == -0.5) ==>
              Scale(r, p).Floor % 2 == 0
    ensures mode == HalfAway && Scale(r - x, p) == 0.5 ==> x >= 0.0
    ensures mode == HalfAway && Scale(r - x, p) == -0.5 ==> x < 0.0
  {
    var n := RoundInt(Scale(x, p), mode);
    ScaleOfQuotient(n as real, p);
    ScaleOfDifference(n as real / Pow10(p) as real, x, p);
    ScaleKeepsSign(x, p);
    n as real / Pow10(p) as real
  }

  /** Shifting by a power of ten keeps the sign. */
  lemma ScaleKeepsSign(x: real, p: nat)
    ensures x >= 0.0 <==> Scale(x, p) >= 0.0
  {
  }

  /** Shifting distributes over a difference. */
  lemma ScaleOfDifference(a: real, b: real, p: nat)
    ensures Scale(a - b, p) == Scale(a, p) - Scale(b, p)
  {
  }

  /** An integer is its own nearest integer, in either mode. */
  lemma RoundIntOfInteger(n: int, mode: Mode)
    ensures RoundInt(n as real, mode) == n
  {
  }

  /** A value that already has `p` digits is left alone. */
  lemma RoundToFixesPrecise(x: real, p: nat, mode: Mode)
    requires AtPrecision(x, p)
    ensures RoundTo(x, p, mode) == x
  {
    RoundIntOfInteger(Scale(x, p).Floor, mode);
    assert RoundTo(x, p, mode) == Scale(x, p) / Pow10(p) as real;
  }

  /** Rounding twice at the same precision is rounding once. */
  lemma RoundToIdempotent(x: real, p: nat, mode: Mode)
    ensures RoundTo(RoundTo(x, p, mode), p, mode) == RoundTo(x, p, mode)
  {
    RoundToFixesPrecise(RoundTo(x, p, mode), p, mode);
  }

  /** Every integer-valued score survives rounding at any precision. */
  lemma RoundToInteger(n: int, p: nat, mode: Mode)
    ensures RoundTo(n as real, p, mode) == n as real
  {
    assert Scale(n as real, p) == (n * Pow10(p)) as real;
    RoundToFixesPrecise(n as real, p, mode);
  }
}

=== FILE: simple_csv.dfy ===
/** `CsvUserLoader` (cmscontrib/loaders/simple_csv.py): users read from
    the rows of a `contestants.csv` file, the selection of one of them by
    username, and the resolution of the loader's path to that file.  CSV
    parsing itself is not modelled: a row is the map from the header's
    column names to the row's cells, and file existence is a given
    predicate. */
module SimpleCsv {
  import opened Wrappers
  import opened Sorting
  import opened PosixPath

  /** `CsvUserLoader.USER_FILE`. */
  const UserFile: string := "contestants.csv"

  /** `contestants.csv` is a plain file name. */
  lemma UserFileIsName()
    ensures |UserFile| > 0 && NoSlash(UserFile)
  {
    forall i | 0 <= i < |UserFile|
      ensures UserFile[i] != '/'
    {
    }
  }

  /** One parsed CSV row: the cells of the columns it has. */
  type CsvRow = map<string, string>

  /** `row.get(column)`. */
  function Get(row: CsvRow, column: string): (r: Option<string>)
    ensures r.Some? <==> column in row
    ensures r.Some? ==> r.value == row[column]
  {
    if column in row then Some(row[column]) else None
  }

  /** A `User` built from a row.  A `None` password is the column's default
      (a password generator the database applies later), an email of
      `None` is no email. */
  datatype LoadedUser = LoadedUser(
    username: string,
    firstName: string,
    lastName: string,
    email: Option<string>,
    password: Option<string>)

  /** `user['username']` on a row without that column raises `KeyError`. */
  datatype LoadError = NoUsernameColumn

  /** The user one row describes. */
  function UserOf(row: CsvRow): (u: LoadedUser)
    requires "username" in row
    ensures u.username == row["username"]
    ensures u.firstName == (if "name" in row then row["name"] else row["username"])
    ensures u.lastName == (if "last_name" in row then row["last_name"] else "")
    ensures u.email == Get(row, "email")
    ensures u.password.Some? <==> "password" in row && row["password"] != ""
    ensures u.password.Some? ==> u.password.value == row["password"]
  {
    var password := Get(row, "password");
    LoadedUser(
      row["username"],
      if "name" in row then row["name"] else row["username"],
      if "last_name" in row then row["last_name"] else "",
      Get(row, "email"),
      if password.Some? && password.value != "" then password else None)
  }

  /** `get_users`: one user per row, in order; the first row without a
      username column aborts the whole read. */
  function GetUsers(rows: seq<CsvRow>): (r: Result<seq<LoadedUser>, LoadError>)
    ensures r.Failure? <==> exists i :: 0 <= i < |rows| && "username" !in rows[i]
    ensures r.Success? ==> |r.value| == |rows|
    ensures r.Success? ==> forall i :: 0 <= i < |rows| ==> r.value[i] == UserOf(rows[i])
  {
    if |rows| == 0 then Success([])
    else if "username" !in rows[0] then Failure(NoUsernameColumn)
    else
      match GetUsers(rows[1..])
      case Failure(e) => Failure(e)
      case Success(rest) => Success([UserOf(rows[0])] + rest)
  }

  /** The usernames of the loaded users are the username cells of the rows,
      and every other field comes from the same row. */
  lemma GetUsersKeepsRows(rows: seq<CsvRow>, i: nat)
    requires forall j :: 0 <= j < |rows| ==> "username" in rows[j]
    requires i < |rows|
    ensures GetUsers(rows).Success?
    ensures GetUsers(rows).value[i].username == rows[i]["username"]
    ensures "name" !in rows[i] ==> GetUsers(rows).value[i].firstName == GetUsers(rows).value[i].username
  {
  }

  function HasUsername(target: Option<string>): LoadedUser -> bool {
    (u: LoadedUser) => target == Some(u.username)
  }

  /** `get_user`: the user whose username is the loader's `user`, when
      exactly one has it; `None` otherwise, also when the loader has no
      `user`. */
  function GetUser(rows: seq<CsvRow>, target: Option<string>): (r: Result<Option<LoadedUser>, LoadError>)
    ensures r.Failure? <==> GetUsers(rows).Failure?
    ensures r.Success? ==>
              (r.value.Some? <==> |Filter(GetUsers(rows).value, HasUsername(target))| == 1)
    ensures r.Success? && r.value.Some? ==>
              r.value.value in GetUsers(rows).value && target == Some(r.value.value.username)
  {
    match GetUsers(rows)
    case Failure(e) => Failure(e)
    case Success(users) =>
      var named := Filter(users, HasUsername(target));
      if |named| != 1 then Success(None) else Success(Some(named[0]))
  }

  /** How often `target` is a username among `users`. */
  function CountNamed(users: seq<LoadedUser>, target: string): nat {
    if |users| == 0 then 0
    else (if users[0].username == target then 1 else 0) + CountNamed(users[1..], target)
  }

  lemma {:induction false} FilterCountsNamed(users: seq<LoadedUser>, target: string)
    ensures |Filter(users, HasUsername(Some(target)))| == CountNamed(users, target)
    decreases |users|
  {
    if |users| > 0 {
      FilterCountsNamed(users[1..], target);
    }
  }

  /** `get_user` finds a user exactly when its username occurs once among
      the rows, and never when the loader has no `user`. */
  lemma GetUserIffUnique(rows: seq<CsvRow>, target: Option<string>)
    requires GetUsers(rows).Success?
    ensures target.None? ==> GetUser(rows, target) == Success(None)
    ensures target.Some? ==>
              (GetUser(rows, target).value.Some? <==> CountNamed(GetUsers(rows).value, target.value) == 1)
  {
    var users := GetUsers(rows).value;
    if target.Some? {
      FilterCountsNamed(users, target.value);
    }
  }

  /** `detect(path)`: a `contestants.csv` beside the path, or the path or
      its directory being named `contestants.csv`. */
  function Detect(path: string, pathExists: string -> bool): (r: bool)
    ensures Basename(path) == UserFile ==> r
    ensures Basename(Dirname(path)) == UserFile ==> r
    ensures pathExists(Join(Dirname(path), UserFile)) ==> r
    ensures r ==> pathExists(Join(Dirname(path), UserFile)) || Basename(path) == UserFile
                  || Basename(Dirname(path)) == UserFile
  {
    var dirName := Dirname(path);
    pathExists(Join(dirName, UserFile)) || Basename(path) == UserFile || Basename(dirName) == UserFile
  }

  /** The loader recognises both a `contestants.csv` file and a user entry
      under a directory named `contestants.csv`, whatever exists. */
  lemma DetectsLoaderPaths(d: string, name: string, pathExists: string -> bool)
    requires |d| > 0 && d[|d| - 1] != '/'
    requires |name| > 0 && NoSlash(name)
    ensures Detect(Join(d, UserFile), pathExists)
    ensures Detect(Join(Join(d, UserFile), name), pathExists)
  {
    BasenameOfJoin(d, UserFile);
    var f := Join(d, UserFile);
    assert f == d + "/" + UserFile;
    SplitOfJoin(f, name);
  }

  /** Conversely, with no `contestants.csv` beside the path, only the two
      loader path shapes are detected: a path whose last component is
      `contestants.csv`, or one under a directory so named. */
  lemma DetectedShapes(path: string, pathExists: string -> bool)
    requires Detect(path, pathExists) && !pathExists(Join(Dirname(path), UserFile))
    ensures var d := Dirname(path);
            || path == Join(path[..HeadLength(path)], UserFile)
            || (d == Join(d[..HeadLength(d)], UserFile) && d <= path)
  {
    UserFileIsName();
    HeadAndBasename(path);
    HeadAndBasename(Dirname(path));
  }

  /** What `set_input_file_name` leaves in `real_path` and `user`. */
  datatype Resolved = Resolved(realPath: string, user: Option<string>)

  /** `set_input_file_name` as written: in the last branch, a path inside a
      directory named `contestants.csv` resolves to the bare name
      `contestants.csv`, relative to the working directory. */
  function SetInputFileNameAsWritten(path: string, pathExists: string -> bool): (r: Resolved)
    ensures r.user.Some? <==> Basename(path) != UserFile && !pathExists(Join(path, UserFile))
    ensures r.user.Some? ==> r.user.value == Basename(path)
    ensures Basename(path) == UserFile ==> r.realPath == path
    ensures Basename(path) != UserFile && pathExists(Join(path, UserFile)) ==>
              r.realPath == Join(path, UserFile)
    ensures r.user.Some? && Basename(Dirname(path)) == UserFile ==> r.realPath == UserFile
    ensures r.user.Some? && Basename(Dirname(path)) != UserFile ==>
              r.realPath == Join(Dirname(path), UserFile)
  {
    if Basename(path) == UserFile then Resolved(path, None)
    else if pathExists(Join(path, UserFile)) then Resolved(Join(path, UserFile), None)
    else
      var (dirName, user) := Split(path);
      if Basename(dirName) == UserFile then Resolved(Basename(dirName), Some(user))
      else Resolved(Join(dirName, UserFile), Some(user))
  }

  /** The as-written resolution drops the directory: for a path
      `<d>/contestants.csv/<name>` with no file under it (for instance
      `/data/contestants.csv/alice`), the file read is a bare
      `contestants.csv`, relative to the working directory, instead of
      `<d>/contestants.csv`. */
  lemma AsWrittenLosesDirectory(d: string, name: string)
    requires |d| > 0 && d[|d| - 1] != '/'
    requires |name| > 0 && NoSlash(name) && name != UserFile
    ensures var path := Join(Join(d, UserFile), name);
            var r := SetInputFileNameAsWritten(path, _ => false);
            && r.user == Some(name)
            && r.realPath == UserFile
            && Dirname(path) == Join(d, UserFile)
            && !(Dirname(path) <= r.realPath)
  {
    UserFileIsName();
    var dirName := Join(d, UserFile);
    assert dirName == d + "/" + UserFile;
    SplitOfJoin(dirName, name);
    BasenameOfJoin(d, UserFile);
  }

  /** `set_input_file_name` with the directory kept in the last branch:
      the path read is always a file named `contestants.csv` under the
      directory of `path`. */
  function SetInputFileName(path: string, pathExists: string -> bool): (r: Resolved)
    ensures r.user.Some? <==> Basename(path) != UserFile && !pathExists(Join(path, UserFile))
    ensures r.user.Some? ==> r.user.value == Basename(path)
    ensures Basename(r.realPath) == UserFile
    ensures Dirname(path) <= r.realPath
    ensures Basename(path) == UserFile ==> r.realPath == path
    ensures Basename(path) != UserFile && pathExists(Join(path, UserFile)) ==>
              r.realPath == Join(path, UserFile)
    ensures r.user.Some? && Basename(Dirname(path)) == UserFile ==> r.realPath == Dirname(path)
    ensures r.user.Some? && Basename(Dirname(path)) != UserFile ==>
              r.realPath == Join(Dirname(path), UserFile)
  {
    var file := Join(path, UserFile);
    UserFileIsName();
    if Basename(path) == UserFile then Resolved(path, None)
    else if pathExists(file) then
      BasenameOfJoin(path, UserFile);
      assert Dirname(path) <= path <= file;
      Resolved(file, None)
    else
      var (dirName, user) := Split(path);
      if Basename(dirName) == UserFile then Resolved(dirName, Some(user))
      else
        BasenameOfJoin(dirName, UserFile);
        Resolved(Join(dirName, UserFile), Some(user))
  }

  /** The two resolutions differ only in the branch the correction
      touches. */
  lemma CorrectionOnlyInLastBranch(path: string, pathExists: string -> bool)
    ensures SetInputFileNameAsWritten(path, pathExists).user == SetInputFileName(path, pathExists).user
    ensures Basename(Dirname(path)) != UserFile ==>
              SetInputFileNameAsWritten(path, pathExists) == SetInputFileName(path, pathExists)
  {
  }
}

=== FILE: sorting.dfy ===
/** Python's `sorted(xs, key=...)` and the `if ...: continue` filter of a
    `for` loop, over sequences.  `sorted` is a stable sort: elements whose
    keys compare equal keep their input order. */
module Sorting {

  /** `le` compares every pair and is transitive, as `<=` on the key of a
      Python `sorted` call is. */
  ghost predicate TotalPreorder<T(!new)>(le: (T, T) -> bool) {
    && (forall a, b :: le(a, b) || le(b, a))
    && (forall a, b, c :: le(a, b) && le(b, c) ==> le(a, c))
  }

  ghost predicate SortedBy<T>(s: seq<T>, le: (T, T) -> bool) {
    forall i, j :: 0 <= i < j < |s| ==> le(s[i], s[j])
  }

  /** The elements of `s` that pass `keep`, in their original order. */
  function Filter<T>(s: seq<T>, keep: T -> bool): (r: seq<T>)
    ensures |r| <= |s|
    ensures forall i :: 0 <= i < |r| ==> r[i] in s && keep(r[i])
    ensures forall i :: 0 <= i < |s| && keep(s[i]) ==> s[i] in r
  {
    if |s| == 0 then []
    else if keep(s[0]) then [s[0]] + Filter(s[1..], keep)
    else Filter(s[1..], keep)
  }

  lemma {:induction false} FilterConcat<T>(a: seq<T>, b: seq<T>, keep: T -> bool)
    ensures Filter(a + b, keep) == Filter(a, keep) + Filter(b, keep)
    decreases |a|
  {
    if |a| > 0 {
      assert (a + b)[0] == a[0];
      assert (a + b)[1..] == a[1..] + b;
      FilterConcat(a[1..], b, keep);
    } else {
      assert a + b == b;
    }
  }

  /** Filtering a sequence grown by one element grows the result by that
      element when it is kept, and leaves it alone otherwise. */
  lemma FilterSnoc<T>(s: seq<T>, x: T, keep: T -> bool)
    ensures Filter(s + [x], keep) == if keep(x) then Filter(s, keep) + [x] else Filter(s, keep)
  {
    FilterConcat(s, [x], keep);
    assert [x][1..] == [];
  }

  /** `FilterSnoc` for a prefix of `s` grown by its next element. */
  lemma FilterTakeSnoc<T>(s: seq<T>, k: nat, keep: T -> bool)
    requires k < |s|
    ensures Filter(s[..k + 1], keep) == if keep(s[k]) then Filter(s[..k], keep) + [s[k]] else Filter(s[..k], keep)
  {
    assert s[..k + 1] == s[..k] + [s[k]];
    FilterSnoc(s[..k], s[k], keep);
  }

  /** Filtering drops a sequence none of whose elements is kept. */
  lemma {:induction false} FilterNone<T>(s: seq<T>, keep: T -> bool)
    requires forall i :: 0 <= i < |s| ==> !keep(s[i])
    ensures Filter(s, keep) == []
    decreases |s|
  {
    if |s| > 0 {
      FilterNone(s[1..], keep);
    }
  }

  /** Filtering ignores a border of dropped elements on either side. */
  lemma FilterDropBorder<T>(a: seq<T>, m: seq<T>, b: seq<T>, keep: T -> bool)
    requires forall i :: 0 <= i < |a| ==> !keep(a[i])
    requires forall i :: 0 <= i < |b| ==> !keep(b[i])
    ensures Filter(a + m + b, keep) == Filter(m, keep)
  {
    FilterConcat(a + m, b, keep);
    FilterConcat(a, m, keep);
    FilterNone(a, keep);
    FilterNone(b, keep);
  }

  /** Filtering keeps every copy of a kept element and none of the others. */
  lemma {:induction false} FilterCount<T>(s: seq<T>, keep: T -> bool, x: T)
    ensures multiset(Filter(s, keep))[x] == if keep(x) then multiset(s)[x] else 0
    decreases |s|
  {
    if |s| > 0 {
      FilterCount(s[1..], keep, x);
      assert s == [s[0]] + s[1..];
    }
  }

  /** Filtering two permutations of each other gives permutations. */
  lemma FilterMultiset<T>(s: seq<T>, keep: T -> bool, t: seq<T>)
    requires multiset(s) == multiset(t)
    ensures multiset(Filter(s, keep)) == multiset(Filter(t, keep))
  {
    forall x
      ensures multiset(Filter(s, keep))[x] == multiset(Filter(t, keep))[x]
    {
      FilterCount(s, keep, x);
      FilterCount(t, keep, x);
    }
  }

  /** Inserts `x` in front of the first element it is `le` to. */
  function Insert<T>(x: T, s: seq<T>, le: (T, T) -> bool): (r: seq<T>)
    ensures |r| == |s| + 1
    ensures multiset(r) == multiset(s) + multiset{x}
  {
    if |s| == 0 || le(x, s[0]) then [x] + s
    else
      assert s == [s[0]] + s[1..];
      [s[0]] + Insert(x, s[1..], le)
  }

  /** `sorted(s)` under the order `le`. */
  function SortBy<T>(s: seq<T>, le: (T, T) -> bool): (r: seq<T>)
    ensures |r| == |s|
    ensures multiset(r) == multiset(s)
  {
    if |s| == 0 then []
    else
      assert s == [s[0]] + s[1..];
      Insert(s[0], SortBy(s[1..], le), le)
  }

  lemma {:induction false} InsertSorted<T(!new)>(x: T, s: seq<T>, le: (T, T) -> bool)
    requires TotalPreorder(le)
    requires SortedBy(s, le)
    ensures SortedBy(Insert(x, s, le), le)
    decreases |s|
  {
    if |s| > 0 && !le(x, s[0]) {
      assert le(s[0], x);
      InsertSorted(x, s[1..], le);
      var r := Insert(x, s[1..], le);
      forall k | 0 <= k < |r|
        ensures le(s[0], r[k])
      {
        assert r[k] in multiset(s[1..]) + multiset{x};
      }
    }
  }

  lemma {:induction false} SortBySorted<T(!new)>(s: seq<T>, le: (T, T) -> bool)
    requires TotalPreorder(le)
    ensures SortedBy(SortBy(s, le), le)
    decreases |s|
  {
    if |s| > 0 {
      SortBySorted(s[1..], le);
      InsertSorted(s[0], SortBy(s[1..], le), le);
    }
  }

  /** `a` and `b` have equal sort keys. */
  predicate Tied<T>(le: (T, T) -> bool, a: T, b: T) {
    le(a, b) && le(b, a)
  }

  /** The test "has the same sort key as `k`". */
  function TiedTo<T>(le: (T, T) -> bool, k: T): T -> bool {
    y => Tied(le, y, k)
  }

  /** Inserting `x` commutes with a filter that never keeps `x` together
      with an element `x` is placed after. */
  lemma {:induction false} InsertFilter<T>(x: T, s: seq<T>, le: (T, T) -> bool, keep: T -> bool)
    requires forall i :: 0 <= i < |s| && keep(x) && keep(s[i]) ==> le(x, s[i])
    ensures Filter(Insert(x, s, le), keep) == Filter([x] + s, keep)
    decreases |s|
  {
    if |s| > 0 && !le(x, s[0]) {
      var rest := Insert(x, s[1..], le);
      InsertFilter(x, s[1..], le, keep);
      assert ([s[0]] + rest)[0] == s[0];
      assert ([s[0]] + rest)[1..] == rest;
      assert ([x] + s[1..])[0] == x;
      assert ([x] + s[1..])[1..] == s[1..];
      assert ([x] + s)[0] == x;
      assert ([x] + s)[1..] == s;
    }
  }

  lemma InsertKeepsTies<T(!new)>(x: T, s: seq<T>, le: (T, T) -> bool, k: T)
    requires TotalPreorder(le)
    ensures Filter(Insert(x, s, le), TiedTo(le, k)) == Filter([x] + s, TiedTo(le, k))
  {
    InsertFilter(x, s, le, TiedTo(le, k));
  }

  /** Stability: the elements tied with any `k` come out in input order. */
  lemma {:induction false} SortByStable<T(!new)>(s: seq<T>, le: (T, T) -> bool, k: T)
    requires TotalPreorder(le)
    ensures Filter(SortBy(s, le), TiedTo(le, k)) == Filter(s, TiedTo(le, k))
    decreases |s|
  {
    var tied := TiedTo(le, k);
    if |s| > 0 {
      SortByStable(s[1..], le, k);
      InsertKeepsTies(s[0], SortBy(s[1..], le), le, k);
      FilterConcat([s[0]], SortBy(s[1..], le), tied);
      FilterConcat([s[0]], s[1..], tied);
      assert s == [s[0]] + s[1..];
    }
  }

  /** A filter of a sorted sequence is sorted. */
  lemma {:induction false} FilterKeepsOrder<T>(s: seq<T>, keep: T -> bool, le: (T, T) -> bool)
    requires SortedBy(s, le)
    ensures SortedBy(Filter(s, keep), le)
    decreases |s|
  {
    if |s| > 0 {
      FilterKeepsOrder(s[1..], keep, le);
      var rest := Filter(s[1..], keep);
      forall j | 0 <= j < |rest|
        ensures le(s[0], rest[j])
      {
        var m :| 0 <= m < |s[1..]| && s[1..][m] == rest[j];
      }
    }
  }

  /** Two filters can be applied in either order. */
  lemma {:induction false} FilterCommute<T>(s: seq<T>, f: T -> bool, g: T -> bool)
    ensures Filter(Filter(s, f), g) == Filter(Filter(s, g), f)
    decreases |s|
  {
    if |s| > 0 {
      FilterCommute(s[1..], f, g);
    }
  }
}

=== FILE: strings.dfy ===
/** Python's ordering on text.  Dafny's own `<` on `seq<char>` means
    "proper prefix", so the lexicographic order that `sorted()` uses on
    `str` values (code point by code point) is defined here. */
module Strings {

  /** `a <= b` for Python strings: code-point-wise lexicographic order,
      a proper prefix sorting first. */
  predicate LexLe(a: string, b: string)
    decreases |a|
  {
    |a| == 0 || (|b| > 0 && (a[0] < b[0] || (a[0] == b[0] && LexLe(a[1..], b[1..]))))
  }

  /** `a < b` for Python strings. */
  predicate LexLt(a: string, b: string) {
    LexLe(a, b) && a != b
  }

  /** Python's `<=` on the tuple `(major, minor)` of two strings: the first
      component decides unless the two are equal. */
  predicate PairLe(a: (string, string), b: (string, string)) {
    LexLt(a.0, b.0) || (a.0 == b.0 && LexLe(a.1, b.1))
  }

  lemma {:induction false} LexLeReflexive(a: string)
    ensures LexLe(a, a)
    decreases |a|
  {
    if |a| > 0 {
      LexLeReflexive(a[1..]);
    }
  }

  lemma {:induction false} LexLeTotal(a: string, b: string)
    ensures LexLe(a, b) || LexLe(b, a)
    decreases |a|
  {
    if |a| > 0 && |b| > 0 && a[0] == b[0] {
      LexLeTotal(a[1..], b[1..]);
    }
  }

  lemma {:induction false} LexLeTransitive(a: string, b: string, c: string)
    requires LexLe(a, b) && LexLe(b, c)
    ensures LexLe(a, c)
    decreases |a|
  {
    if |a| > 0 && a[0] == b[0] && b[0] == c[0] {
      LexLeTransitive(a[1..], b[1..], c[1..]);
    }
  }

  lemma {:induction false} LexLeAntisymmetric(a: string, b: string)
    requires LexLe(a, b) && LexLe(b, a)
    ensures a == b
    decreases |a|
  {
    if |a| > 0 {
      LexLeAntisymmetric(a[1..], b[1..]);
      assert a == [a[0]] + a[1..];
      assert b == [b[0]] + b[1..];
    }
  }

  /** The lexicographic order extends Dafny's prefix order. */
  lemma {:induction false} PrefixIsLexLe(a: string, b: string)
    requires a <= b
    ensures LexLe(a, b)
    decreases |a|
  {
    if |a| > 0 {
      assert a[1..] <= b[1..];
      PrefixIsLexLe(a[1..], b[1..]);
    }
  }

  lemma PairLeReflexive(a: (string, string))
    ensures PairLe(a, a)
  {
    LexLeReflexive(a.1);
  }

  lemma PairLeTotal(a: (string, string), b: (string, string))
    ensures PairLe(a, b) || PairLe(b, a)
  {
    LexLeTotal(a.0, b.0);
    LexLeTotal(a.1, b.1);
  }

  lemma PairLeTransitive(a: (string, string), b: (string, string), c: (string, string))
    requires PairLe(a, b) && PairLe(b, c)
    ensures PairLe(a, c)
  {
    if a.0 != b.0 && b.0 != c.0 {
      LexLeTransitive(a.0, b.0, c.0);
      if a.0 == c.0 {
        LexLeAntisymmetric(a.0, b.0);
      }
    } else if a.0 == b.0 && b.0 == c.0 {
      LexLeTransitive(a.1, b.1, c.1);
    }
  }
}

=== FILE: team_code.dfy ===
/** `ImportParticipantsHandler.prepare_team_code`: turns a team's display
    name into its code.  Lower-casing, NFKD decomposition and the
    combining-character test are Unicode database services, taken as
    given functions. */
module TeamCode {
  import opened Sorting

  datatype Unicode = Unicode(lower: string -> string, nfkd: string -> string, combining: char -> bool)

  /** The characters `team_bad_re` does not match: `[a-zA-Z0-9-]`. */
  predicate IsCodeChar(c: char) {
    ('a' <= c <= 'z') || ('A' <= c <= 'Z') || ('0' <= c <= '9') || c == '-'
  }

  /** The characters of `s` that are not combining, in order. */
  function DropCombining(u: Unicode, s: string): (r: string)
    ensures r == Filter(s, c => !u.combining(c))
    ensures forall i :: 0 <= i < |r| ==> !u.combining(r[i])
    ensures Filter(r, IsCodeChar) == Filter(Filter(s, IsCodeChar), c => !u.combining(c))
  {
    if |s| == 0 then []
    else if u.combining(s[0]) then DropCombining(u, s[1..])
    else [s[0]] + DropCombining(u, s[1..])
  }

  /** Length of the run of non-code characters `s` starts with. */
  function BadRun(s: string): (n: nat)
    ensures 0 < |s| && !IsCodeChar(s[0]) ==> n > 0
    ensures n <= |s|
    ensures forall i :: 0 <= i < n ==> !IsCodeChar(s[i])
    ensures n < |s| ==> IsCodeChar(s[n])
  {
    if |s| == 0 || IsCodeChar(s[0]) then 0 else 1 + BadRun(s[1..])
  }

  /** `team_bad_re.sub("_", s)`: every maximal run of characters outside
      `[a-zA-Z0-9-]` (so `_` too) becomes a single `_`. */
  function Collapse(s: string): (r: string)
    ensures forall i :: 0 <= i < |r| ==> IsCodeChar(r[i]) || r[i] == '_'
    ensures forall i :: 0 <= i < |r| - 1 ==> !(r[i] == '_' && r[i + 1] == '_')
    ensures Filter(r, IsCodeChar) == Filter(s, IsCodeChar)
    ensures 0 < |s| && IsCodeChar(s[0]) ==> 0 < |r| && r[0] == s[0]
    ensures 0 < |s| && !IsCodeChar(s[0]) ==> 0 < |r| && r[0] == '_'
    decreases |s|
  {
    if |s| == 0 then []
    else if IsCodeChar(s[0]) then [s[0]] + Collapse(s[1..])
    else
      var n := BadRun(s);
      BadRunFiltersAway(s, n);
      "_" + Collapse(s[n..])
  }

  /** The run ends exactly at the first code character. */
  lemma BadRunIsFirstCode(s: string, n: nat)
    requires n <= |s|
    requires forall i :: 0 <= i < n ==> !IsCodeChar(s[i])
    requires n < |s| ==> IsCodeChar(s[n])
    ensures BadRun(s) == n
  {
  }

  lemma CollapseCode(s: string)
    requires |s| > 0 && IsCodeChar(s[0])
    ensures Collapse(s) == [s[0]] + Collapse(s[1..])
  {
  }

  lemma CollapseBad(s: string)
    requires |s| > 0 && !IsCodeChar(s[0])
    ensures Collapse(s) == "_" + Collapse(s[BadRun(s)..])
  {
  }

  /** A string that ends in a code character collapses on its own: what
      follows it starts a new run. */
  lemma {:induction false} CollapseAppend(a: string, b: string)
    requires |a| == 0 || IsCodeChar(a[|a| - 1])
    ensures Collapse(a + b) == Collapse(a) + Collapse(b)
    decreases |a|
  {
    if |a| == 0 {
      assert a + b == b;
    } else if IsCodeChar(a[0]) {
      assert (a + b)[1..] == a[1..] + b;
      CollapseCode(a + b);
      CollapseCode(a);
      CollapseAppend(a[1..], b);
      PrefixStep([a[0]], Collapse(a + b), Collapse(a), Collapse(a[1..] + b), Collapse(a[1..]), Collapse(b));
    } else {
      var n := BadRun(a);
      assert n < |a|;
      BadRunIsFirstCode(a + b, n);
      assert (a + b)[n..] == a[n..] + b;
      CollapseBad(a + b);
      CollapseBad(a);
      CollapseAppend(a[n..], b);
      PrefixStep("_", Collapse(a + b), Collapse(a), Collapse(a[n..] + b), Collapse(a[n..]), Collapse(b));
    }
  }

  /** A common first piece carries a split of the rest over to the whole. */
  lemma PrefixStep(h: string, whole: string, left: string, rest: string, leftRest: string, right: string)
    requires whole == h + rest && left == h + leftRest && rest == leftRest + right
    ensures whole == left + right
  {
  }

  /** Each maximal run of non-code characters becomes exactly one `_`
      between the same neighbours. */
  lemma CollapseRun(a: string, run: string, b: string)
    requires |a| == 0 || IsCodeChar(a[|a| - 1])
    requires |run| > 0 && forall i :: 0 <= i < |run| ==> !IsCodeChar(run[i])
    requires |b| == 0 || IsCodeChar(b[0])
    ensures Collapse(a + run + b) == Collapse(a) + "_" + Collapse(b)
  {
    var rb := run + b;
    assert Collapse(a + rb) == Collapse(a) + "_" + Collapse(b) by {
      RunThenCode(run, b);
      CollapseAppend(a, rb);
      JoinStep(Collapse(a + rb), Collapse(a), Collapse(rb), Collapse(b));
    }
    assert a + run + b == a + rb;
  }

  /** A whole run followed by a code character becomes one `_`. */
  lemma RunThenCode(run: string, b: string)
    requires |run| > 0 && forall i :: 0 <= i < |run| ==> !IsCodeChar(run[i])
    requires |b| == 0 || IsCodeChar(b[0])
    ensures Collapse(run + b) == "_" + Collapse(b)
  {
    var rb := run + b;
    BadRunIsFirstCode(rb, |run|);
    assert rb[|run|..] == b;
    CollapseBad(rb);
  }

  /** Rebracketing a three-piece concatenation. */
  lemma JoinStep(whole: string, left: string, rest: string, right: string)
    requires whole == left + rest && rest == "_" + right
    ensures whole == left + "_" + right
  {
  }

  lemma {:induction false} BadRunFiltersAway(s: string, n: nat)
    requires n <= |s|
    requires forall i :: 0 <= i < n ==> !IsCodeChar(s[i])
    ensures Filter(s, IsCodeChar) == Filter(s[n..], IsCodeChar)
    decreases n
  {
    if n > 0 {
      BadRunFiltersAway(s[1..], n - 1);
      assert s[1..][n - 1..] == s[n..];
    }
  }

  function LeadingUnderscores(s: string): (n: nat)
    ensures n <= |s|
    ensures forall i :: 0 <= i < n ==> s[i] == '_'
    ensures n < |s| ==> s[n] != '_'
  {
    if |s| == 0 || s[0] != '_' then 0 else 1 + LeadingUnderscores(s[1..])
  }

  function TrailingUnderscores(s: string): (n: nat)
    ensures n <= |s|
    ensures forall i :: |s| - n <= i < |s| ==> s[i] == '_'
    ensures n < |s| ==> s[|s| - n - 1] != '_'
  {
    if |s| == 0 || s[|s| - 1] != '_' then 0 else 1 + TrailingUnderscores(s[..|s| - 1])
  }

  /** `s.strip("_")`: the longest infix with no `_` at either end, what is
      cut off on each side being only `_`. */
  function StripUnderscores(s: string): (r: string)
    ensures |r| == 0 || (r[0] != '_' && r[|r| - 1] != '_')
    ensures exists i, j :: && 0 <= i <= j <= |s| && r == s[i..j]
                           && (forall k :: 0 <= k < i ==> s[k] == '_')
                           && (forall k :: j <= k < |s| ==> s[k] == '_')
  {
    var front := LeadingUnderscores(s);
    var rest := s[front..];
    var back := TrailingUnderscores(rest);
    assert rest[..|rest| - back] == s[front..|s| - back];
    rest[..|rest| - back]
  }

  lemma SplitThree<T>(s: seq<T>, i: nat, j: nat)
    requires i <= j <= |s|
    ensures s == s[..i] + s[i..j] + s[j..]
  {
  }

  /** Removing a border made only of `_` keeps the code characters. */
  lemma UnderscoreBorder(s: string, i: nat, j: nat)
    requires i <= j <= |s|
    requires forall k :: 0 <= k < i ==> s[k] == '_'
    requires forall k :: j <= k < |s| ==> s[k] == '_'
    ensures Filter(s[i..j], IsCodeChar) == Filter(s, IsCodeChar)
  {
    SplitThree(s, i, j);
    FilterDropBorder(s[..i], s[i..j], s[j..], IsCodeChar);
  }

  /** An infix of a string over `[a-zA-Z0-9_-]` without `__` is one too. */
  lemma InfixKeepsShape(s: string, i: nat, j: nat)
    requires i <= j <= |s|
    requires forall k :: 0 <= k < |s| ==> IsCodeChar(s[k]) || s[k] == '_'
    requires forall k :: 0 <= k < |s| - 1 ==> !(s[k] == '_' && s[k + 1] == '_')
    ensures var r := s[i..j];
            && (forall k :: 0 <= k < |r| ==> IsCodeChar(r[k]) || r[k] == '_')
            && (forall k :: 0 <= k < |r| - 1 ==> !(r[k] == '_' && r[k + 1] == '_'))
  {
    var r := s[i..j];
    forall k | 0 <= k < |r| - 1
      ensures !(r[k] == '_' && r[k + 1] == '_')
    {
      assert r[k] == s[i + k] && r[k + 1] == s[i + k + 1];
    }
  }

  /** The string `prepare_team_code` works on before `team_bad_re`: lower-
      cased, NFKD-decomposed, combining characters dropped. */
  function Folded(u: Unicode, name: string): string {
    DropCombining(u, u.nfkd(u.lower(name)))
  }

  /** Stripping keeps the alphabet, the absence of `__` and the code
      characters of what it strips. */
  lemma StripUnderscoresKeeps(s: string)
    requires forall i :: 0 <= i < |s| ==> IsCodeChar(s[i]) || s[i] == '_'
    requires forall i :: 0 <= i < |s| - 1 ==> !(s[i] == '_' && s[i + 1] == '_')
    ensures var r := StripUnderscores(s);
            && (forall i :: 0 <= i < |r| ==> IsCodeChar(r[i]) || r[i] == '_')
            && (forall i :: 0 <= i < |r| - 1 ==> !(r[i] == '_' && r[i + 1] == '_'))
            && Filter(r, IsCodeChar) == Filter(s, IsCodeChar)
  {
    var i, j :| && 0 <= i <= j <= |s| && StripUnderscores(s) == s[i..j]
                && (forall k :: 0 <= k < i ==> s[k] == '_')
                && (forall k :: j <= k < |s| ==> s[k] == '_');
    UnderscoreBorder(s, i, j);
    InfixKeepsShape(s, i, j);
  }

  /** A string with no `_` at either end is left as it is. */
  lemma StripUnderscoresNoBorder(s: string)
    requires |s| == 0 || (s[0] != '_' && s[|s| - 1] != '_')
    ensures StripUnderscores(s) == s
  {
    assert LeadingUnderscores(s) == 0;
    assert TrailingUnderscores(s) == 0;
    assert s[0..] == s;
    assert s[..|s|] == s;
  }

  /** `prepare_team_code(name)`. */
  function PrepareTeamCode(u: Unicode, name: string): (code: string)
    ensures forall i :: 0 <= i < |code| ==> IsCodeChar(code[i]) || code[i] == '_'
    ensures |code| == 0 || (code[0] != '_' && code[|code| - 1] != '_')
    ensures forall i :: 0 <= i < |code| - 1 ==> !(code[i] == '_' && code[i + 1] == '_')
  {
    var collapsed := Collapse(Folded(u, name));
    StripUnderscoresKeeps(collapsed);
    StripUnderscores(collapsed)
  }

  /** The code keeps, in order, every `[a-zA-Z0-9-]` character of the
      folded name and no other character but `_`. */
  lemma PrepareTeamCodeKeepsText(u: Unicode, name: string)
    ensures Filter(PrepareTeamCode(u, name), IsCodeChar) == Filter(Folded(u, name), IsCodeChar)
  {
    StripUnderscoresKeeps(Collapse(Folded(u, name)));
  }

  predicate IsLowerCodeChar(c: char) {
    ('a' <= c <= 'z') || ('0' <= c <= '9') || c == '-'
  }

  lemma {:induction false} CollapseKeepsCodeText(s: string)
    requires forall i :: 0 <= i < |s| ==> IsCodeChar(s[i])
    ensures Collapse(s) == s
    decreases |s|
  {
    if |s| > 0 {
      CollapseKeepsCodeText(s[1..]);
      assert s == [s[0]] + s[1..];
    }
  }

  lemma {:induction false} DropCombiningKeeps(u: Unicode, s: string)
    requires forall i :: 0 <= i < |s| ==> !u.combining(s[i])
    ensures DropCombining(u, s) == s
    decreases |s|
  {
    if |s| > 0 {
      DropCombiningKeeps(u, s[1..]);
      assert s == [s[0]] + s[1..];
    }
  }

  /** A name made only of `[a-z0-9-]`, on which lower-casing and NFKD act as
      the identity and no character is combining (as Unicode has it for
      these ASCII characters), is its own code. */
  lemma CodeTextIsFixedPoint(u: Unicode, name: string)
    requires forall i :: 0 <= i < |name| ==> IsLowerCodeChar(name[i])
    requires u.lower(name) == name && u.nfkd(name) == name
    requires forall i :: 0 <= i < |name| ==> !u.combining(name[i])
    ensures PrepareTeamCode(u, name) == name
  {
    DropCombiningKeeps(u, name);
    CollapseKeepsCodeText(name);
    StripUnderscoresNoBorder(name);
  }
}

=== FILE: user_handlers.dfy ===
/** The user handlers of the admin server (cms/server/admin/handlers/user.py):
    the "upload" and "save" actions of `ImportUsersHandler.post`, and the
    check that `UserHandler.post` and `AddUserHandler.post` make before a
    user is stored.  The database is a map from username to stored user;
    the random passwords the save action draws are given as a sequence. */
module UserHandlers {
  import opened Wrappers
  import opened ContestData
  import opened SimpleCsv

  /** One preview line: `True` with the uploaded user for a new username,
      `False` with the stored user for an existing one. */
  datatype ImportEntry = ImportEntry(isNew: bool, user: LoadedUser)

  /** The preview, the number of ignored existing users, and whether the
      "users already exist" notification is raised. */
  datatype UserPreview = UserPreview(users: seq<ImportEntry>, ignored: nat, notified: bool)

  /** Why the upload redirects back: the CSV could not be read, or a
      username already exists and existing users are not ignored. */
  datatype UserImportError = BadCsv(cause: LoadError) | AlreadyExists(username: string)

  /** An uploaded user as previewed: its password is dropped when
      passwords are to be generated, and a `None` password (the column's
      generator default) stays `None`. */
  function Uploaded(u: LoadedUser, generatePasswords: bool): (r: LoadedUser)
    ensures r.username == u.username && r.firstName == u.firstName && r.lastName == u.lastName
    ensures r.email == u.email
    ensures r.password.Some? <==> !generatePasswords && u.password.Some?
    ensures r.password.Some? ==> r.password == u.password
  {
    if generatePasswords || u.password.None? then u.(password := None) else u
  }

  /** A stored user as previewed: a non-empty password is shown only as
      `not_empty`. */
  function Shown(u: LoadedUser): (r: LoadedUser)
    ensures r.username == u.username && r.firstName == u.firstName && r.lastName == u.lastName
    ensures r.password.Some? && r.password.value != "" ==> r.password == Some("not_empty")
    ensures r.password.None? || r.password.value == "" ==> r == u
    ensures u.password.Some? && u.password.value != "" ==> r == u.(password := Some("not_empty"))
    ensures u.password.None? || u.password.value == "" ==> r == u
  {
    if u.password.Some? && u.password.value != "" then u.(password := Some("not_empty")) else u
  }

  /** The preview line of one uploaded user. */
  predicate EntryFor(db: map<string, LoadedUser>, u: LoadedUser, generatePasswords: bool, e: ImportEntry) {
    && (e.isNew <==> u.username !in db)
    && (e.isNew ==> e.user == Uploaded(u, generatePasswords))
    && (!e.isNew ==> e.user == Shown(db[u.username]))
  }

  /** The handler's loop body for a user it keeps: the stored user, shown,
      for a known username, else the uploaded one. */
  function EntryOf(db: map<string, LoadedUser>, u: LoadedUser, generatePasswords: bool): (e: ImportEntry)
    ensures EntryFor(db, u, generatePasswords, e)
  {
    if u.username in db then ImportEntry(false, Shown(db[u.username]))
    else ImportEntry(true, Uploaded(u, generatePasswords))
  }

  /** How many preview lines are existing users. */
  function CountExisting(entries: seq<ImportEntry>): (n: nat)
    ensures n <= |entries|
  {
    if |entries| == 0 then 0
    else CountExisting(entries[..|entries| - 1]) + (if entries[|entries| - 1].isNew then 0 else 1)
  }

  /** How many of `users` have a username in `db`. */
  function CountKnown(db: map<string, LoadedUser>, users: seq<LoadedUser>): (n: nat)
    ensures n <= |users|
  {
    if |users| == 0 then 0
    else CountKnown(db, users[..|users| - 1]) + (if users[|users| - 1].username in db then 1 else 0)
  }

  lemma CountKnownTake(db: map<string, LoadedUser>, users: seq<LoadedUser>, k: nat)
    requires k < |users|
    ensures CountKnown(db, users[..k + 1]) == CountKnown(db, users[..k]) + (if users[k].username in db then 1 else 0)
  {
    assert users[..k + 1][..k] == users[..k];
  }

  /** Existing-user preview lines are exactly the uploaded users whose
      username is stored. */
  lemma {:induction false} ExistingAreKnown(db: map<string, LoadedUser>, users: seq<LoadedUser>, generatePasswords: bool,
                                            entries: seq<ImportEntry>)
    requires |entries| == |users|
    requires forall i :: 0 <= i < |users| ==> EntryFor(db, users[i], generatePasswords, entries[i])
    ensures CountExisting(entries) == CountKnown(db, users)
    decreases |users|
  {
    if |users| > 0 {
      var n := |users| - 1;
      assert EntryFor(db, users[n], generatePasswords, entries[n]);
      ExistingAreKnown(db, users[..n], generatePasswords, entries[..n]);
    }
  }

  /** The upload loop over the loaded users. */
  method ProcessUsers(db: map<string, LoadedUser>, users: seq<LoadedUser>, ignoreExisting: bool, generatePasswords: bool)
    returns (r: Result<UserPreview, UserImportError>)
    ensures r.Failure? <==> !ignoreExisting && exists i :: 0 <= i < |users| && users[i].username in db
    ensures r.Failure? ==>
              exists i :: && 0 <= i < |users| && users[i].username in db
                          && (forall j :: 0 <= j < i ==> users[j].username !in db)
                          && r.error == AlreadyExists(users[i].username)
    ensures r.Success? ==> |r.value.users| == |users|
    ensures r.Success? ==> forall i :: 0 <= i < |users| ==> EntryFor(db, users[i], generatePasswords, r.value.users[i])
    ensures r.Success? ==> r.value.ignored == CountExisting(r.value.users) == CountKnown(db, users)
    ensures r.Success? ==> (r.value.notified <==> r.value.ignored > 0)
  {
    var processed: seq<ImportEntry> := [];
    var ignored: nat := 0;
    var k := 0;
    while k < |users|
      invariant 0 <= k <= |users|
      invariant |processed| == k
      invariant forall i :: 0 <= i < k ==> EntryFor(db, users[i], generatePasswords, processed[i])
      invariant !ignoreExisting ==> forall i :: 0 <= i < k ==> users[i].username !in db
      invariant ignored == CountKnown(db, users[..k])
    {
      var u := users[k];
      CountKnownTake(db, users, k);
      if u.username in db && !ignoreExisting {
        return Failure(AlreadyExists(u.username));
      }
      var e := EntryOf(db, u, generatePasswords);
      processed := processed + [e];
      if !e.isNew {
        ignored := ignored + 1;
      }
      k := k + 1;
    }
    assert users[..k] == users;
    ExistingAreKnown(db, users, generatePasswords, processed);
    return Success(UserPreview(processed, ignored, ignored > 0));
  }

  /** The "upload" action: the whole file is read first, so a malformed
      row is reported before any username is looked up. */
  method Upload(db: map<string, LoadedUser>, rows: seq<CsvRow>, ignoreExisting: bool, generatePasswords: bool)
    returns (r: Result<UserPreview, UserImportError>)
    ensures GetUsers(rows).Failure? <==> r.Failure? && r.error.BadCsv?
    ensures GetUsers(rows).Success? ==>
              (r.Failure? <==> !ignoreExisting && exists i :: 0 <= i < |rows| && rows[i]["username"] in db)
    ensures r.Success? ==> |r.value.users| == |rows|
    ensures r.Success? ==> forall i :: 0 <= i < |rows| ==>
              EntryFor(db, UserOf(rows[i]), generatePasswords, r.value.users[i])
    ensures r.Success? ==> (r.value.notified <==> exists i :: 0 <= i < |rows| && rows[i]["username"] in db)
  {
    var loaded := GetUsers(rows);
    if loaded.Failure? {
      return Failure(BadCsv(loaded.error));
    }
    var users := loaded.value;
    r := ProcessUsers(db, users, ignoreExisting, generatePasswords);
    if r.Success? {
      if exists i :: 0 <= i < |rows| && rows[i]["username"] in db {
        var i :| 0 <= i < |rows| && rows[i]["username"] in db;
        assert !r.value.users[i].isNew;
        CountExistingPositive(r.value.users, i);
      } else {
        CountKnownZero(db, users);
      }
    }
  }

  lemma {:induction false} CountExistingPositive(entries: seq<ImportEntry>, i: nat)
    requires i < |entries| && !entries[i].isNew
    ensures CountExisting(entries) > 0
    decreases |entries|
  {
    if i < |entries| - 1 {
      CountExistingPositive(entries[..|entries| - 1], i);
    }
  }

  lemma {:induction false} CountKnownZero(db: map<string, LoadedUser>, users: seq<LoadedUser>)
    requires forall i :: 0 <= i < |users| ==> users[i].username !in db
    ensures CountKnown(db, users) == 0
    decreases |users|
  {
    if |users| > 0 {
      CountKnownZero(db, users[..|users| - 1]);
    }
  }

  /** A user the "save" action creates. */
  datatype NewUser = NewUser(username: string, firstName: string, lastName: string, email: string, password: Hashed)

  /** The "save" action: one user per submitted username, in form order;
      an empty password is replaced by the row's generated one before it
      is hashed.  The form's lists are aligned with the usernames. */
  function SaveUsers(usernames: seq<string>, firstNames: seq<string>, lastNames: seq<string>,
                     passwords: seq<string>, emails: seq<string>, generated: seq<string>): (r: seq<NewUser>)
    requires |firstNames| >= |usernames| && |lastNames| >= |usernames|
    requires |passwords| >= |usernames| && |emails| >= |usernames| && |generated| >= |usernames|
    ensures |r| == |usernames|
    ensures forall i :: 0 <= i < |usernames| ==>
              && r[i].username == usernames[i]
              && r[i].firstName == firstNames[i]
              && r[i].lastName == lastNames[i]
              && r[i].email == emails[i]
              && (passwords[i] != "" ==> r[i].password == Plaintext(Some(passwords[i])))
              && (passwords[i] == "" ==> r[i].password == Plaintext(Some(generated[i])))
    decreases |usernames|
  {
    if |usernames| == 0 then []
    else
      var password := if passwords[0] != "" then passwords[0] else generated[0];
      [NewUser(usernames[0], firstNames[0], lastNames[0], emails[0], Plaintext(Some(password)))]
        + SaveUsers(usernames[1..], firstNames[1..], lastNames[1..], passwords[1..], emails[1..], generated[1..])
  }

  /** No saved user is left without a password when the generator never
      yields an empty one. */
  lemma SavedUsersHavePasswords(usernames: seq<string>, firstNames: seq<string>, lastNames: seq<string>,
                                passwords: seq<string>, emails: seq<string>, generated: seq<string>)
    requires |firstNames| >= |usernames| && |lastNames| >= |usernames|
    requires |passwords| >= |usernames| && |emails| >= |usernames| && |generated| >= |usernames|
    requires forall i :: 0 <= i < |usernames| ==> generated[i] != ""
    ensures forall u :: u in SaveUsers(usernames, firstNames, lastNames, passwords, emails, generated) ==>
              u.password.raw.Some? && u.password.raw.value != ""
  {
    var r := SaveUsers(usernames, firstNames, lastNames, passwords, emails, generated);
    forall u | u in r
      ensures u.password.raw.Some? && u.password.raw.value != ""
    {
      var i :| 0 <= i < |r| && r[i] == u;
    }
  }

  /** A user's editable attributes: `None` is Python's `None`. */
  type Attrs = map<string, Option<string>>

  /** The submitted form: the fields it carries. */
  type Form = map<string, string>

  /** `get_string(attrs, name, empty)`: an absent field leaves the
      attribute as it was, an empty one stores `empty`, any other stores
      its text. */
  function GetString(attrs: Attrs, form: Form, name: string, empty: Option<string>): (r: Attrs)
    ensures r.Keys == attrs.Keys + (if name in form then {name} else {})
    ensures forall k :: k in attrs && k != name ==> r[k] == attrs[k]
    ensures name in form && form[name] != "" ==> r[name] == Some(form[name])
    ensures name in form && form[name] == "" ==> r[name] == empty
  {
    if name !in form then attrs
    else attrs[name := if form[name] == "" then empty else Some(form[name])]
  }

  datatype FormError = NoUsername

  /** The string fields both user forms read, in handler order. */
  function ReadUserStrings(attrs: Attrs, form: Form): Attrs {
    var a := GetString(attrs, form, "first_name", Some(""));
    var a := GetString(a, form, "last_name", Some(""));
    var a := GetString(a, form, "username", None);
    var a := GetString(a, form, "email", None);
    GetString(a, form, "timezone", None)
  }

  predicate UsernameSet(attrs: Attrs) {
    "username" in attrs && attrs["username"].Some?
  }

  /** `UserHandler.post`: the stored user's attributes updated from the
      form, refused when that leaves no username. */
  function EditUser(current: Attrs, form: Form): (r: Result<Attrs, FormError>)
    ensures r.Failure? <==>
              if "username" in form then form["username"] == "" else !UsernameSet(current)
    ensures r.Success? ==> UsernameSet(r.value)
    ensures r.Success? && "username" in form ==> r.value["username"] == Some(form["username"])
    ensures r.Success? ==> forall k :: k in current && k !in form ==> k in r.value && r.value[k] == current[k]
  {
    var attrs := ReadUserStrings(current, form);
    if !UsernameSet(attrs) then Failure(NoUsername) else Success(attrs)
  }

  /** `AddUserHandler.post`: a new user's attributes from the form,
      refused without a non-empty username. */
  function AddUser(form: Form): (r: Result<Attrs, FormError>)
    ensures r.Failure? <==> "username" !in form || form["username"] == ""
    ensures r.Success? ==> "username" in r.value && r.value["username"] == Some(form["username"])
    ensures r.Success? ==> forall k :: k in r.value ==> k in form
  {
    var attrs := ReadUserStrings(map[], form);
    if !UsernameSet(attrs) then Failure(NoUsername) else Success(attrs)
  }

  /** A refused edit stores nothing: what the user keeps is exactly what
      it had, whatever else the form carried. */
  function StoredAfterEdit(current: Attrs, form: Form): (stored: Attrs)
    ensures "username" in form && form["username"] == "" ==> stored == current
    ensures UsernameSet(current) ==> UsernameSet(stored)
    ensures EditUser(current, form).Failure? ==> stored == current
    ensures EditUser(current, form).Success? ==> stored == EditUser(current, form).value
  {
    match EditUser(current, form)
    case Success(attrs) => attrs
    case Failure(_) => current
  }
}

=== FILE: wrappers.dfy ===
/** Failure-carrying return types shared by the handlers' models: `Option`
    stands for Python's `None`-or-value, `Result` for a value or a raised
    exception / aborted request. */
module Wrappers {

  datatype Option<+T> = None | Some(value: T) {
    function GetOr(default: T): T {
      match this
      case Some(v) => v
      case None => default
    }
  }

  datatype Result<+R, +E> = Success(value: R) | Failure(error: E) {
    predicate IsFailure() {
      Failure?
    }

    function PropagateFailure<U>(): Result<U, E>
      requires Failure?
    {
      Failure(error)
    }

    function Extract(): R
      requires Success?
    {
      value
    }
  }
}
